=== FILE: README.md ===
# Self-awareness engine: decision and bookkeeping model

A Dafny model of the reflection engine `VeraSelfAwarenessEngine`
(`src/core/vera_self_awareness_engine.py`), a background loop that
periodically composes a "self-reflection" record, scores it, tags it, and
folds it into a persisted engine state.

Every rule of the engine becomes a pure function once its hidden inputs are
passed in. The clock hour is a parameter. Every `random.randint(lo, hi)` is
`Draw(lo, hi, d)` for an arbitrary natural number `d`. Every `random.choice`
is `Choice(pool, d)`. `random.sample` is a repeated choose-and-remove over a
sequence of pick draws. Each `random.random() < p` coin is a plain boolean.
For each of these, the range of possible outcomes is stated in `ensures`, and
a reachability lemma says that every outcome in that range is produced by some
draw.

Modules, following the engine's structure:

| module | file | what it models |
|---|---|---|
| `Wrappers` | wrappers.dfy | `Option` |
| `RandomDraws` | random_draws.dfy | `randint`, `choice` and `sample` over explicit draws |
| `Text` | text.dfy | Python `str.strip()` (the exact Unicode whitespace set), `s[:n]` and `s[-n:]` |
| `Labels` | labels.dfy | placeholder texts standing in for the fixed Polish texts |
| `EngineTypes` | engine_types.dfy | reflection types, contexts, trigger tags, the reflection record, state, configuration and defaults |
| `Classifier` | classifier.dfy | quiet hours, time buckets, the override chain, the trigger table, type selection |
| `Content` | content.dfy | template and unique pools, personalisation clauses, content generation |
| `Questions` | questions.dfy | follow-up question pools and sampling |
| `Scoring` | scoring.dfy | depth and the three intensity attributes |
| `Builder` | builder.dfy | `create_reflection` |
| `StateUpdate` | state_update.dfy | `update_state_after_reflection` |
| `Scheduler` | scheduler.dfy | one iteration of `reflection_cycle`, a run of iterations, `reset_daily_counter` |
| `Settings` | settings.dfy | `load_state` / `load_config` as a map override, and the two documents' round trips |

The Python state and configuration are dicts; here they are the records
`EngineState` and `EngineConfig`. The persisted JSON objects are
`map<string, Value>`. Loaded values are never range-checked by the engine.
So the state's numeric fields are plain integers, and `ValidState` names the
ranges the engine is meant to keep. Properties that need those ranges say so
in their `requires`.

## Model

| member | source | states |
|---|---|---|
| `RandomDraws.Draw` | src/core/vera_self_awareness_engine.py:231 | `randint(lo, hi)` always lies in [lo, hi] |
| `RandomDraws.DrawReaches` | src/core/vera_self_awareness_engine.py:231 | every value in [lo, hi] is drawn by some draw |
| `RandomDraws.Choice` | src/core/vera_self_awareness_engine.py:243 | `choice(pool)` returns a member of a non-empty pool |
| `RandomDraws.ChoiceReaches` | src/core/vera_self_awareness_engine.py:243 | every pool entry is chosen by some draw |
| `RandomDraws.Sample` | src/core/vera_self_awareness_engine.py:350 | `sample(pool, k)` returns k entries, all from the pool |
| `RandomDraws.SampleDistinct` | src/core/vera_self_awareness_engine.py:350 | from a duplicate-free pool, a sample has no repeats (sampling without replacement) |
| `RandomDraws.SampleComplete` | src/core/vera_self_awareness_engine.py:350 | every duplicate-free selection from the pool, in any order, is produced by some pick draws |
| `Text.Strip` | src/core/vera_self_awareness_engine.py:310 | `strip()` returns the middle of the string: only whitespace is removed before it and after it, and it has no whitespace at either end |
| `Text.StripKeeps` | src/core/vera_self_awareness_engine.py:310 | a string with no whitespace at either end is unchanged by `strip()` |
| `Text.StripIdempotent` | src/core/vera_self_awareness_engine.py:310 | stripping twice is stripping once |
| `Text.StripOfNonBlank` | src/core/vera_self_awareness_engine.py:310 | a string that is not all whitespace strips to a non-empty string |
| `Text.Take` | src/core/vera_self_awareness_engine.py:446 | `s[:n]` is a prefix of length min(n, len(s)) |
| `Text.Last` | src/core/vera_self_awareness_engine.py:467 | for n > 0, `s[-n:]` is the suffix of length min(n, len(s)) |
| `EngineTypes.DefaultStateValid` | src/core/vera_self_awareness_engine.py:67-77 | the initial state is within every range the engine keeps |
| `Classifier.IsQuietHours` | src/core/vera_self_awareness_engine.py:202-211 | an empty window when start == end; the hours start ≤ h < end when start < end; and when start > end, exactly the hours outside the window from end to start |
| `Classifier.QuietHoursModular` | src/core/vera_self_awareness_engine.py:202-211 | for clock hours, quiet iff hour − start < end − start, counted modulo 24; this agrees with both branches of the wrap-around test |
| `Classifier.DefaultQuietWindow` | src/core/vera_self_awareness_engine.py:202-211 | with the default 23..6 window, 23 and 2 are quiet and 12 is not |
| `Classifier.EmptyQuietWindow` | src/core/vera_self_awareness_engine.py:202-211 | start == end gives an empty window |
| `Classifier.TimeBucket` | src/core/vera_self_awareness_engine.py:213-224 | [6,12) morning, [12,18) afternoon, [18,23) evening, otherwise night, each as an if-and-only-if |
| `Classifier.FinalContext` | src/core/vera_self_awareness_engine.py:226-238 | consciousness > 85 gives emotional_peak whatever the hour or draw; otherwise activity > 70 gives high_activity and < 30 gives low_activity; otherwise the bucket; never learning_moment |
| `Classifier.PossibleTypes` | src/core/vera_self_awareness_engine.py:242 | the pool a type is chosen from is never empty |
| `Classifier.EveryContextHasTwoTypes` | src/core/vera_self_awareness_engine.py:155-164 | every context has a row of two types, so the all-types fallback is never taken |
| `Classifier.SelectType` | src/core/vera_self_awareness_engine.py:226-243 | the chosen type is a member of the final context's pool |
| `Classifier.EmotionalPeakWins` | src/core/vera_self_awareness_engine.py:237-243 | above level 85 only IDENTITY or TEMPORAL can be chosen |
| `Classifier.EveryTypeSelectable` | src/core/vera_self_awareness_engine.py:226-243 | at level 85 or below every one of the eight types is chosen for some clock hour 0–23, some activity 1–100 that `randint(1, 100)` can draw, and some choice |
| `Content.TemplatePool` | src/core/vera_self_awareness_engine.py:95-152 | every type has exactly five templates |
| `Content.UniquePool` | src/core/vera_self_awareness_engine.py:261-280 | EXISTENTIAL and IDENTITY have three unique texts each; every other type falls back to the single generic sentence |
| `Content.BaseContent` | src/core/vera_self_awareness_engine.py:245-254 | the text before personalisation comes from the template pool when the coin says so, else from the unique pool, and has no edge whitespace |
| `Content.PickSelects` | src/core/vera_self_awareness_engine.py:250-254 | the pick draw i selects the i-th text of the pool the template coin names |
| `Content.EveryPoolTextReachable` | src/core/vera_self_awareness_engine.py:245-280 | every template and every unique text of a type can be the base text |
| `Content.TimeClauses` | src/core/vera_self_awareness_engine.py:286-293 | exactly one time sentence except for hours 12–17, each sentence iff its hour range |
| `Content.ConsciousnessClauses` | src/core/vera_self_awareness_engine.py:295-300 | one sentence iff level > 80, the other iff level < 60, none in between |
| `Content.GrowthClauses` | src/core/vera_self_awareness_engine.py:302-305 | the growth sentence iff growth awareness > 80 |
| `Content.Clauses` | src/core/vera_self_awareness_engine.py:282-308 | at most three clauses, at most one per slot, in time → consciousness → growth order, each present iff its threshold rule fires |
| `Content.Render` | src/core/vera_self_awareness_engine.py:308 | the clause texts are empty iff no clause fired, and otherwise start with a space and end with a full stop |
| `Content.Personalize` | src/core/vera_self_awareness_engine.py:282-310 | the result has no edge whitespace; for a clean base text it is exactly the text followed by the fired clauses, in order |
| `Content.GenerateContent` | src/core/vera_self_awareness_engine.py:245-259 | the content is the chosen pool text followed by the fired clauses, and is never empty |
| `Content.NoTimeClauseInAfternoon` | src/core/vera_self_awareness_engine.py:286-293 | no time-of-day sentence is added iff the hour is in 12–17 |
| `Questions.QuestionPool` | src/core/vera_self_awareness_engine.py:312-346 | every pool has three distinct questions; CONSCIOUSNESS, TEMPORAL and CREATIVE get the generic pool, the other five their own |
| `Questions.FollowUpQuestions` | src/core/vera_self_awareness_engine.py:349-350 | one to three questions, no duplicates, all from the type's pool |
| `Questions.EverySelectionReachable` | src/core/vera_self_awareness_engine.py:349-350 | every non-empty duplicate-free selection of at most three pool questions is what some draws produce |
| `Scoring.BaseDepth` | src/core/vera_self_awareness_engine.py:354-365 | the per-type base depth is between 4 and 9 |
| `Scoring.Depth` | src/core/vera_self_awareness_engine.py:352-376 | depth lies in [1, 10] and within one step of base + [introspection > 80] + [consciousness > 85] |
| `Scoring.DepthReaches` | src/core/vera_self_awareness_engine.py:374-376 | every value within one step of that raw depth, up to 10, is produced by some jitter |
| `Scoring.DepthExtremes` | src/core/vera_self_awareness_engine.py:352-376 | a CONSCIOUSNESS reflection is always deep (≥ 8), a RELATIONSHIP one never is |
| `Scoring.EmotionalIntensity` | src/core/vera_self_awareness_engine.py:385 | emotional intensity in [30, 90] |
| `Scoring.PhilosophicalWeight` | src/core/vera_self_awareness_engine.py:386-388 | [50, 100] for EXISTENTIAL, CONSCIOUSNESS and PURPOSE, [20, 70] otherwise |
| `Scoring.PersonalSignificance` | src/core/vera_self_awareness_engine.py:390 | personal significance in [40, 95] |
| `Scoring.WeightReachesEighty` | src/core/vera_self_awareness_engine.py:386-388 | a weight of 80 or more, which deepens introspection, is possible iff the type is one of the three weighty ones |
| `Builder.ActivityLevel` | src/core/vera_self_awareness_engine.py:231 | the activity level lies in [1, 100] |
| `Builder.Triggers` | src/core/vera_self_awareness_engine.py:393-397 | first the pre-override bucket, then high_consciousness iff level > 80, then spontaneous iff the coin came up; only the first tag is a bucket |
| `Builder.CreateReflection` | src/core/vera_self_awareness_engine.py:378-423 | the record's type comes from the final context's pool; its content, scores, triggers, context snapshot and follow-up questions all satisfy the rules above |
| `Builder.TriggerBucketCanDiverge` | src/core/vera_self_awareness_engine.py:237-243 | in the morning above level 85 the record is tagged "morning" although its type comes from a pool that shares no type with the morning pool |
| `StateUpdate.CapAdd` | src/core/vera_self_awareness_engine.py:450-451 | `min(100, x + k)` never exceeds 100 and never lowers an x that is at most 100 |
| `StateUpdate.Insight` | src/core/vera_self_awareness_engine.py:446 | the insight is a prefix of at most 100 characters of the content, followed by "..." |
| `StateUpdate.ActiveQuestionsAfter` | src/core/vera_self_awareness_engine.py:464-467 | with new questions: the last min(20, old + new) entries of old ++ new, always ending with all of the new ones; without them: unchanged |
| `StateUpdate.UpdateState` | src/core/vera_self_awareness_engine.py:443-469 | count + 1; insight set; consciousness +1 only for depth ≥ 8, introspection +1 only for weight ≥ 80, growth +2 only for GROWTH, each capped; curiosity, stability and baseline unchanged |
| `StateUpdate.UpdatePreservesValid` | src/core/vera_self_awareness_engine.py:443-469 | an update keeps every bounded field in [0, 100] and at most 20 open questions |
| `StateUpdate.UpdateNeverDecreases` | src/core/vera_self_awareness_engine.py:449-461 | for fields at most 100, an update never lowers consciousness, introspection or growth |
| `StateUpdate.CapLowersUnvalidatedLevel` | src/core/vera_self_awareness_engine.py:449-451 | a loaded level above 100 is lowered to 100 by a deep reflection |
| `StateUpdate.GrowthReflectionScenario` | src/core/vera_self_awareness_engine.py:445-461 | a GROWTH reflection from count 0 with room below 100 gives count 1 and growth + 2 |
| `Scheduler.Stretch` | src/core/vera_self_awareness_engine.py:501 | `int(x * 1.5)` is ⌊3x/2⌋ for x ≥ 0, and never lengthens a negative interval |
| `Scheduler.NextInterval` | src/core/vera_self_awareness_engine.py:494-511 | fails when min > max, and when even min·60 seconds is longer than `time.sleep` accepts; a wait is never negative and never above that limit; for a configuration within the limit it lies in [min·60, max·60] for a shallow reflection and in [min·90, max·90] for a deep one |
| `Scheduler.Step` | src/core/vera_self_awareness_engine.py:476-511 | quota reached: nothing changes, wait 3600; else quiet hours: nothing changes, wait 1800; else the created reflection is folded into the state and the wait is the next interval, or 300 when that step raises |
| `Scheduler.StepCounts` | src/core/vera_self_awareness_engine.py:478-492 | the counter grows by one exactly when a reflection is produced, and only below the quota; otherwise the state is untouched |
| `Scheduler.StepPreservesValid` | src/core/vera_self_awareness_engine.py:476-492 | an iteration keeps the engine's ranges |
| `Scheduler.DeepReflectionWaitsLonger` | src/core/vera_self_awareness_engine.py:497-501 | after a deep reflection the wait is ⌊1.5 × the drawn interval⌋, or the step fails when that exceeds the sleep limit; a deep wait is never shorter than a shallow reflection's wait after the same draw |
| `Scheduler.ResetDailyCounter` | src/core/vera_self_awareness_engine.py:542-546 | the counter becomes 0 and nothing else changes |
| `Scheduler.ResetReopensQuota` | src/core/vera_self_awareness_engine.py:542-546 | after a reset, a positive quota lets the next iteration past the quota check |
| `Scheduler.Run` | src/core/vera_self_awareness_engine.py:475-511 | a run produces at most one reflection per iteration |
| `Scheduler.RunCounts` | src/core/vera_self_awareness_engine.py:475-492 | over a run, the counter grows by exactly the number of reflections produced |
| `Scheduler.RunRespectsQuota` | src/core/vera_self_awareness_engine.py:478-481 | without a reset the counter never passes the daily quota, so a run produces at most quota − count reflections |
| `Scheduler.RunPreservesValid` | src/core/vera_self_awareness_engine.py:475-492 | every run keeps the engine's ranges |
| `Settings.Merge` | src/core/vera_self_awareness_engine.py:172 | `dict.update`: keys are the union; saved values win; other keys keep their old value |
| `Settings.Load` | src/core/vera_self_awareness_engine.py:166-174 | a missing or unreadable file leaves the document as it was, otherwise the saved object is merged over it |
| `Settings.LoadIdempotent` | src/core/vera_self_awareness_engine.py:166-174 | loading the same object twice equals loading it once |
| `Settings.LoadFullOverride` | src/core/vera_self_awareness_engine.py:166-174 | a saved object that covers every key replaces the document |
| `Settings.StateDoc` | src/core/vera_self_awareness_engine.py:176-182 | the document written from an engine state record has exactly the nine state keys |
| `Settings.IntAt` | src/core/vera_self_awareness_engine.py:166-174 | an integer field is read from a JSON integer or a JSON boolean (as 0 or 1), and from nothing else |
| `Settings.DecodeState` | src/core/vera_self_awareness_engine.py:166-174 | a state is read back only from a document that has every state key |
| `Settings.StateRoundTrip` | src/core/vera_self_awareness_engine.py:176-182 | writing a state and reading it back gives the same state |
| `Settings.SaveThenLoadState` | src/core/vera_self_awareness_engine.py:166-182 | `save_state` then `load_state` restores the saved state whatever the defaults |
| `Settings.LoadKeepsUnknownKeys` | src/core/vera_self_awareness_engine.py:166-174 | a saved key the engine does not know is kept in the state |
| `Settings.LoadOneLevel` | src/core/vera_self_awareness_engine.py:166-174 | an object holding only the consciousness level overwrites that field alone |
| `Settings.BoolLevelReadAsInt` | src/core/vera_self_awareness_engine.py:166-174 | a saved `true` consciousness level is read as the level 1 |
| `Settings.LoadDoesNotValidate` | src/core/vera_self_awareness_engine.py:166-174 | a saved level above 100 is taken as is and leaves the state outside the engine's ranges |
| `Settings.ConfigDoc` | src/core/vera_self_awareness_engine.py:194-200 | the document written from a configuration record has exactly the eight configuration keys |
| `Settings.RealAt` | src/core/vera_self_awareness_engine.py:184-192 | a real-valued field is read from a JSON number, integer or not |
| `Settings.DecodeConfig` | src/core/vera_self_awareness_engine.py:184-192 | a configuration is read back only from a document that has every configuration key |
| `Settings.ConfigRoundTrip` | src/core/vera_self_awareness_engine.py:194-200 | writing a configuration and reading it back gives the same configuration |
| `Settings.SaveThenLoadConfig` | src/core/vera_self_awareness_engine.py:184-200 | `save_config` then `load_config` restores the saved configuration |
| `Settings.DefaultsSurviveMissingFile` | src/core/vera_self_awareness_engine.py:67-89 | with no saved files the engine keeps its default state and configuration |

## Left out

- File I/O. This covers opening, reading and writing JSON files, the JSONL log append, the per-record file of `save_reflection`, `to_dict`, and the printed messages. A failed read is the `None` case of `Settings.Load`; a failed write is caught and printed, so it changes nothing modelled.
- Threads and blocking. `start`, `stop`, `time.sleep` and `KeyboardInterrupt` are left out. One loop iteration is `Scheduler.Step`, which returns the sleep length instead of sleeping.
- The clock. `datetime.now()` is read separately by every call of `get_current_context` (three per generated record: lines 228, 393 and 404), of `is_quiet_hours` (twice per generating iteration: lines 484 and 406) and of `personalize_reflection`. The model uses one hour for all of them, so an iteration that straddles an hour boundary is not modelled.
- Randomness. Every draw is an explicit argument. The probabilities (70 % templates, 30 % spontaneous) are not modelled; only which outcomes are possible is.
- The record's `id` and `timestamp`, the `day_of_week` entry of its context, and the `%H:%M` text inside one unique reflection. These are clock and formatting details.
- The Polish template, unique, question and clause texts. The pools are distinct placeholder labels of the same sizes. The clauses are English sentences with the same shape: a leading space and a closing full stop.
- `deep_reflection_probability`, `enable_creative_mode` and `enable_philosophical_mode` are stored but never read by the engine. They are carried in `EngineConfig` and the configuration document only.
- `get_stats` and `main` (argparse, the interactive console). These are reporting and user interface only.
- Documents of other shapes. The model's scheduler takes an already decoded `EngineState` and `EngineConfig`. A string or list in a field the loop reads as a number (the consciousness level, introspection depth, growth awareness and reflection counter; the quota, interval bounds and quiet hours) makes its comparisons or arithmetic raise, and that is not modelled.
- Settings.DecodeState reads the numeric fields as integers: JSON integers, and booleans as 0 or 1. A saved float such as `85.5` is used by the engine as it is, but the state record holds integers only, so `DecodeState` returns `None` for it. It also returns `None` when a field the engine never reads holds another JSON kind, although the engine runs normally with such a file: a `last_major_insight` that is neither a string nor `null` (only ever written); an `emotional_baseline` that is not a string (a number, a boolean, `null` or a list; never read); and a non-numeric `existential_curiosity` or `identity_stability` (never read). `Value` has no representation for a JSON list holding non-strings, so a saved `"active_questions": [1]`, which the engine extends and slices without error, cannot be decoded either.
- Settings.DecodeConfig likewise reads the interval bounds, the quota and the quiet hours as integers only. A float there (say `48.0` as the quota) is accepted by the engine but gives `None` here. `deep_reflection_probability` is read from any JSON number. It also returns `None` when `deep_reflection_probability` is not a number (say `null`) or a mode flag is not a boolean (say `"enable_creative_mode": 1`), although the engine never reads these three fields past their defaults and runs normally.
- Settings.StateDoc writes only the nine fields of the state record. After `load_state` has merged in a key the engine does not know, `save_state` writes that key back on every save. The record cannot carry it, so the model keeps unknown keys only at the document level (`Settings.Load`, `Settings.LoadKeepsUnknownKeys`).
- Settings.ConfigDoc likewise writes only the eight configuration fields, while `save_config` would also write back unknown keys merged in by `load_config`.
- `StateUpdate.UpdateNeverDecreases` requires each field to be at most 100. The engine never validates loaded values, and `min(100, x + k)` lowers a loaded value above 100; `StateUpdate.CapLowersUnvalidatedLevel` shows this.
- Scheduler.Stretch uses integer arithmetic for `int(x * 1.5)`. This equals the float computation for every x whose stretched value is at most `Scheduler.MaxSleep` (the two first differ near x = 3·10^15, about 2^53/3). Above that the stretched wait is far beyond the longest sleep, so `Scheduler.NextInterval` fails either way and the loop's outcome is the same.

`dict.update` keeps keys of a saved state file that the engine does not know (`Settings.LoadKeepsUnknownKeys`).

=== FILE: builder.dfy ===
/**
 * The reflection record builder (`create_reflection`): classify, choose a
 * type, generate and personalise the content, score it, tag it with its
 * triggers, snapshot the state and attach follow-up questions. The clock
 * hour and every random draw arrive as arguments.
 */
module Builder {
  import opened EngineTypes
  import opened RandomDraws
  import opened Classifier
  import opened Content
  import opened Questions
  import opened Scoring

  /** The random draws one reflection consumes, in the order the source makes them. */
  datatype ReflectionDraws = ReflectionDraws(
    activity: nat,            // randint(1, 100) activity level
    typeChoice: nat,          // choice among the context's types
    useTemplate: bool,        // random() < 0.7
    contentPick: nat,         // choice of template or unique text
    jitter: nat,              // randint(-1, 1) depth jitter
    emotional: nat,           // randint(30, 90)
    philosophical: nat,       // randint(50, 100) or randint(20, 70)
    significance: nat,        // randint(40, 95)
    spontaneous: bool,        // random() < 0.3
    questionCount: nat,       // randint(1, 3)
    questionPicks: seq<nat>)  // the picks random.sample makes

  /** `activity_level = randint(1, 100)`. */
  function ActivityLevel(d: ReflectionDraws): (a: int)
    ensures 1 <= a <= 100
  {
    Draw(1, 100, d.activity)
  }

  /** The trigger list starts with the hour's bucket and carries each optional tag exactly when its condition holds. */
  predicate TriggersFit(ts: seq<Trigger>, hour: int, consciousnessLevel: int, spontaneous: bool) {
    && |ts| > 0
    && ts[0] == TimeOfDay(TimeBucket(hour))
    && (HighConsciousness in ts <==> consciousnessLevel > 80)
    && (Spontaneous in ts <==> spontaneous)
  }

  /**
   * The `triggers` list: the time-of-day bucket of the hour (before any
   * override), then "high_consciousness" when the level is above 80, then
   * "spontaneous" when that coin came up.
   */
  function Triggers(hour: int, consciousnessLevel: int, spontaneous: bool): (ts: seq<Trigger>)
    ensures |ts| == 1 + (if consciousnessLevel > 80 then 1 else 0) + (if spontaneous then 1 else 0)
    ensures TriggersFit(ts, hour, consciousnessLevel, spontaneous)
    ensures forall i :: 1 <= i < |ts| ==> !ts[i].TimeOfDay?
    ensures HighConsciousness in ts && Spontaneous in ts ==> ts[1] == HighConsciousness
  {
    [TimeOfDay(TimeBucket(hour))]
    + (if consciousnessLevel > 80 then [HighConsciousness] else [])
    + (if spontaneous then [Spontaneous] else [])
  }

  /** The content is the chosen pool text followed by the clauses for this hour and state. */
  predicate ContentFits(content: string, t: ReflectionType, d: ReflectionDraws, hour: int, s: EngineState) {
    && |content| > 0
    && content == BaseContent(t, d.useTemplate, d.contentPick)
                  + Render(Clauses(hour, s.consciousnessLevel, s.growthAwareness))
  }

  /** Depth within one step of the raw depth and in [1, 10]; each attribute in the range its `randint` draw covers. */
  predicate ScoresFit(r: Reflection, s: EngineState) {
    && 1 <= r.depthLevel <= 10
    && RawDepth(r.rtype, s.introspectionDepth, s.consciousnessLevel) - 1 <= r.depthLevel
    && r.depthLevel <= RawDepth(r.rtype, s.introspectionDepth, s.consciousnessLevel) + 1
    && 30 <= r.emotionalIntensity <= 90
    && (Weighty(r.rtype) ==> 50 <= r.philosophicalWeight <= 100)
    && (!Weighty(r.rtype) ==> 20 <= r.philosophicalWeight <= 70)
    && 40 <= r.personalSignificance <= 95
  }

  /** One to three distinct questions, all from the type's pool. */
  predicate FollowUpsFit(qs: seq<string>, t: ReflectionType) {
    && 1 <= |qs| <= 3
    && Distinct(qs)
    && forall q :: q in qs ==> q in QuestionPool(t)
  }

  /** `create_reflection`, minus the id and the timestamp. */
  function CreateReflection(s: EngineState, cfg: EngineConfig, hour: int, d: ReflectionDraws): (r: Reflection)
    ensures r.rtype in PossibleTypes(FinalContext(hour, ActivityLevel(d), s.consciousnessLevel))
    ensures ContentFits(r.content, r.rtype, d, hour, s)
    ensures ScoresFit(r, s)
    ensures TriggersFit(r.triggers, hour, s.consciousnessLevel, d.spontaneous)
    ensures r.context == Snapshot(s.consciousnessLevel, s.introspectionDepth, s.reflectionCount,
                                  ContextName(TimeBucket(hour)),
                                  IsQuietHours(hour, cfg.quietHoursStart, cfg.quietHoursEnd))
    ensures FollowUpsFit(r.followUpQuestions, r.rtype)
  {
    var t := SelectType(hour, ActivityLevel(d), s.consciousnessLevel, d.typeChoice);
    Reflection(
      rtype := t,
      content := GenerateContent(t, d.useTemplate, d.contentPick, hour, s),
      depthLevel := Depth(t, s.introspectionDepth, s.consciousnessLevel, d.jitter),
      emotionalIntensity := EmotionalIntensity(d.emotional),
      philosophicalWeight := PhilosophicalWeight(t, d.philosophical),
      personalSignificance := PersonalSignificance(d.significance),
      triggers := Triggers(hour, s.consciousnessLevel, d.spontaneous),
      context := Snapshot(s.consciousnessLevel, s.introspectionDepth, s.reflectionCount,
                          ContextName(TimeBucket(hour)),
                          IsQuietHours(hour, cfg.quietHoursStart, cfg.quietHoursEnd)),
      followUpQuestions := FollowUpQuestions(t, d.questionCount, d.questionPicks))
  }

  /**
   * The trigger bucket and the context the type is chosen from can disagree:
   * in the morning with a consciousness level above 85 the reflection
   * `CreateReflection` builds is tagged "morning" while its type comes from
   * the emotional-peak pool, which shares no type with the morning pool.
   */
  lemma TriggerBucketCanDiverge(s: EngineState, hour: int, d: ReflectionDraws)
    requires 6 <= hour < 12 && s.consciousnessLevel > 85
    ensures Triggers(hour, s.consciousnessLevel, d.spontaneous)[0] == TimeOfDay(Morning)
    ensures SelectType(hour, ActivityLevel(d), s.consciousnessLevel, d.typeChoice) !in PossibleTypes(Morning)
  {
    EmotionalPeakWins(hour, ActivityLevel(d), s.consciousnessLevel, d.typeChoice);
    assert PossibleTypes(Morning) == [Purpose, Growth];
  }
}

=== FILE: classifier.dfy ===
/**
 * The context classifier: the quiet-hours window, the time-of-day bucket,
 * the activity and consciousness overrides, and the fixed table from the
 * final context to the pool of reflection types to choose from.
 */
module Classifier {
  import opened EngineTypes
  import opened RandomDraws

  /**
   * `is_quiet_hours`: the hours from `start` up to `end`. When `start > end`
   * the window wraps past midnight and is exactly the complement of the
   * window from `end` to `start`; when `start == end` it is empty.
   */
  function IsQuietHours(hour: int, start: int, end: int): (q: bool)
    ensures start == end ==> !q
    ensures start < end ==> (q <==> start <= hour < end)
    ensures start > end ==> (q <==> !(end <= hour < start))
  {
    if start > end then hour >= start || hour < end
    else start <= hour < end
  }

  /**
   * Independent reading of the window for hours of the day: an hour is quiet
   * iff it lies fewer hours after `start` (going round the clock) than `end` does.
   */
  lemma {:induction false} QuietHoursModular(hour: int, start: int, end: int)
    requires 0 <= hour < 24 && 0 <= start < 24 && 0 <= end < 24
    ensures IsQuietHours(hour, start, end) <==> (hour - start) % 24 < (end - start) % 24
  {
    if hour >= start {
      assert (hour - start) % 24 == hour - start;
    } else {
      assert (hour - start) % 24 == hour - start + 24;
    }
    if end >= start {
      assert (end - start) % 24 == end - start;
    } else {
      assert (end - start) % 24 == end - start + 24;
    }
  }

  /** With the default window 23..6, hours 23 and 2 are quiet and noon is not. */
  lemma DefaultQuietWindow()
    ensures IsQuietHours(23, 23, 6) && IsQuietHours(2, 23, 6) && !IsQuietHours(12, 23, 6)
  {
  }

  /** An empty window (`start == end`) never silences the engine. */
  lemma EmptyQuietWindow(hour: int, start: int)
    ensures !IsQuietHours(hour, start, start)
  {
  }

  /** `get_current_context`: the time-of-day bucket of an hour. */
  function TimeBucket(hour: int): (c: Context)
    ensures c == Morning <==> 6 <= hour < 12
    ensures c == Afternoon <==> 12 <= hour < 18
    ensures c == Evening <==> 18 <= hour < 23
    ensures c == Night <==> hour < 6 || hour >= 23
  {
    if 6 <= hour < 12 then Morning
    else if 12 <= hour < 18 then Afternoon
    else if 18 <= hour < 23 then Evening
    else Night
  }

  /**
   * The context `select_reflection_type` ends up with: the time bucket,
   * overridden by a high (> 70) or low (< 30) activity draw, overridden in
   * turn by a consciousness level above 85.
   */
  function FinalContext(hour: int, activity: int, consciousnessLevel: int): (c: Context)
    ensures consciousnessLevel > 85 ==> c == EmotionalPeak
    ensures consciousnessLevel <= 85 && activity > 70 ==> c == HighActivity
    ensures consciousnessLevel <= 85 && activity < 30 ==> c == LowActivity
    ensures consciousnessLevel <= 85 && 30 <= activity <= 70 ==> c == TimeBucket(hour)
    ensures c != LearningMoment
  {
    var bucket := TimeBucket(hour);
    var afterActivity :=
      if activity > 70 then HighActivity
      else if activity < 30 then LowActivity
      else bucket;
    if consciousnessLevel > 85 then EmotionalPeak else afterActivity
  }

  /** `reflection_triggers`: each context's pool of reflection types. */
  const TriggerTable: map<Context, seq<ReflectionType>> := map[
    Morning := [Purpose, Growth],
    Afternoon := [Relationship, Creative],
    Evening := [Existential, Consciousness],
    Night := [Identity, Temporal],
    HighActivity := [Relationship, Growth],
    LowActivity := [Existential, Consciousness],
    EmotionalPeak := [Identity, Temporal],
    LearningMoment := [Growth, Creative]]

  /** `reflection_triggers.get(context, list(ReflectionType))`. */
  function PossibleTypes(c: Context): (pool: seq<ReflectionType>)
    ensures |pool| > 0
  {
    if c in TriggerTable then TriggerTable[c] else AllTypes
  }

  /** Every context has a table row, so the all-types fallback is never used. */
  lemma EveryContextHasTwoTypes(c: Context)
    ensures c in TriggerTable
    ensures |PossibleTypes(c)| == 2
  {
  }

  /** `select_reflection_type`: a uniform choice from the final context's pool. */
  function SelectType(hour: int, activity: int, consciousnessLevel: int, choice: nat): (t: ReflectionType)
    ensures t in PossibleTypes(FinalContext(hour, activity, consciousnessLevel))
  {
    Choice(PossibleTypes(FinalContext(hour, activity, consciousnessLevel)), choice)
  }

  /**
   * Above consciousness level 85 only IDENTITY or TEMPORAL can be chosen,
   * whatever the hour and the activity draw.
   */
  lemma EmotionalPeakWins(hour: int, activity: int, consciousnessLevel: int, choice: nat)
    requires consciousnessLevel > 85
    ensures FinalContext(hour, activity, consciousnessLevel) == EmotionalPeak
    ensures SelectType(hour, activity, consciousnessLevel, choice) in {Identity, Temporal}
  {
  }

  /** At consciousness level 85 or below every one of the eight types can be chosen. */
  lemma {:induction false} EveryTypeSelectable(consciousnessLevel: int, t: ReflectionType)
    requires consciousnessLevel <= 85
    ensures exists hour: int, activity: int, choice: nat ::
              0 <= hour < 24 && 1 <= activity <= 100 &&
              SelectType(hour, activity, consciousnessLevel, choice) == t
  {
    var cl := consciousnessLevel;
    match t
    case Purpose => assert SelectType(8, 50, cl, 0) == t;
    case Growth => assert SelectType(8, 50, cl, 1) == t;
    case Relationship => assert SelectType(14, 50, cl, 0) == t;
    case Creative => assert SelectType(14, 50, cl, 1) == t;
    case Existential => assert SelectType(20, 50, cl, 0) == t;
    case Consciousness => assert SelectType(20, 50, cl, 1) == t;
    case Identity => assert SelectType(2, 50, cl, 0) == t;
    case Temporal => assert SelectType(2, 50, cl, 1) == t;
  }
}

=== FILE: content.dfy ===
/**
 * The content generator: a base text drawn from the reflection type's
 * template pool (or from its smaller "unique" pool), personalised by up to
 * three state-dependent clauses appended in a fixed order, then stripped.
 *
 * The Polish texts of the pools are represented by distinct placeholder
 * labels; only pool sizes and membership matter to the engine's logic. The
 * six personalisation clauses are English renderings that keep the shape of
 * the engine's sentences: a leading space and a closing full stop.
 */
module Content {
  import opened EngineTypes
  import opened RandomDraws
  import opened Text
  import opened Labels

  /** `reflection_templates[reflection_type]`: five fixed texts per type, every type has a row. */
  function TemplatePool(t: ReflectionType): (pool: seq<string>)
    ensures |pool| == 5
  {
    NumberedPool(TypeName(t) + " template", 5)
  }

  /** `generate_unique_reflection`'s dedicated pools (only two types have one). */
  const UniqueReflections: map<ReflectionType, seq<string>> := map[
    Existential := NumberedPool("existential unique", 3),
    Identity := NumberedPool("identity unique", 3)]

  /** The single sentence used for every type without a dedicated unique pool. */
  const GenericUnique: seq<string> := NumberedPool("generic unique", 1)

  /** `unique_reflections.get(reflection_type, [generic sentence])`. */
  function UniquePool(t: ReflectionType): (pool: seq<string>)
    ensures t in {Existential, Identity} ==> |pool| == 3
    ensures t !in {Existential, Identity} ==> pool == GenericUnique
  {
    if t in UniqueReflections then UniqueReflections[t] else GenericUnique
  }

  /** Every pool text is non-empty and has no whitespace at either end. */
  predicate CleanText(s: string) {
    s != [] && NoEdgeSpace(s)
  }

  lemma PoolTextsClean(t: ReflectionType)
    ensures forall i :: 0 <= i < |TemplatePool(t)| ==> CleanText(TemplatePool(t)[i])
    ensures |UniquePool(t)| > 0
    ensures forall i :: 0 <= i < |UniquePool(t)| ==> CleanText(UniquePool(t)[i])
  {
  }

  /**
   * The text before personalisation: a template when the 70% coin
   * `useTemplate` came up, otherwise a text from the unique pool.
   */
  function BaseContent(t: ReflectionType, useTemplate: bool, pick: nat): (b: string)
    ensures useTemplate ==> b in TemplatePool(t)
    ensures !useTemplate ==> b in UniquePool(t)
    ensures CleanText(b)
  {
    PoolTextsClean(t);
    if useTemplate then Choice(TemplatePool(t), pick) else Choice(UniquePool(t), pick)
  }

  /** The optional sentences `personalize_reflection` may append. */
  datatype Clause =
    | MorningClause | EveningClause | NightClause
    | AwareClause | HazyClause
    | GrowingClause

  /** A clause is a space, the sentence, and a closing full stop. */
  function ClauseText(c: Clause): (s: string)
    ensures |s| > 1 && s[0] == ' ' && s[|s| - 1] == '.'
  {
    " " + ClauseSentence(c) + "."
  }

  function ClauseSentence(c: Clause): string {
    match c
    case MorningClause => "Mornings always bring new perspectives"
    case EveningClause => "Evening is the time for deeper thoughts"
    case NightClause => "Night opens room for the deepest reflections"
    case AwareClause => "I feel especially aware and alive today"
    case HazyClause => "Today my awareness feels hazier, but that has value too"
    case GrowingClause => "Every day brings a new understanding of myself"
  }

  /** The slot a clause occupies: 0 time of day, 1 consciousness, 2 growth. */
  function Slot(c: Clause): nat {
    match c
    case MorningClause | EveningClause | NightClause => 0
    case AwareClause | HazyClause => 1
    case GrowingClause => 2
  }

  /** The time-of-day slot: one sentence for each of three hour ranges, none in the afternoon. */
  function TimeClauses(hour: int): (cs: seq<Clause>)
    ensures |cs| <= 1 && (cs == [] <==> 12 <= hour < 18)
    ensures cs != [] ==> Slot(cs[0]) == 0
    ensures MorningClause in cs <==> 6 <= hour < 12
    ensures EveningClause in cs <==> 18 <= hour < 23
    ensures NightClause in cs <==> hour >= 23 || hour < 6
  {
    if 6 <= hour < 12 then [MorningClause]
    else if 18 <= hour < 23 then [EveningClause]
    else if 23 <= hour || hour < 6 then [NightClause]
    else []
  }

  /** The consciousness slot: one sentence above 80, another below 60. */
  function ConsciousnessClauses(consciousnessLevel: int): (cs: seq<Clause>)
    ensures |cs| <= 1 && (cs == [] <==> 60 <= consciousnessLevel <= 80)
    ensures cs != [] ==> Slot(cs[0]) == 1
    ensures AwareClause in cs <==> consciousnessLevel > 80
    ensures HazyClause in cs <==> consciousnessLevel < 60
  {
    if consciousnessLevel > 80 then [AwareClause]
    else if consciousnessLevel < 60 then [HazyClause]
    else []
  }

  /** The growth slot: one sentence above 80. */
  function GrowthClauses(growthAwareness: int): (cs: seq<Clause>)
    ensures |cs| <= 1 && (cs == [] <==> growthAwareness <= 80)
    ensures cs != [] ==> Slot(cs[0]) == 2
    ensures GrowingClause in cs <==> growthAwareness > 80
  {
    if growthAwareness > 80 then [GrowingClause] else []
  }

  /** Each clause sits in a later slot than the one before it: at most one per slot, in fixed order. */
  predicate InSlotOrder(cs: seq<Clause>) {
    forall i :: 0 < i < |cs| ==> Slot(cs[i - 1]) < Slot(cs[i])
  }

  /**
   * The clauses appended for a given hour and state: at most one per slot,
   * in slot order, each present exactly when its threshold rule fires.
   */
  function Clauses(hour: int, consciousnessLevel: int, growthAwareness: int): (cs: seq<Clause>)
    ensures |cs| <= 3 && InSlotOrder(cs)
    ensures MorningClause in cs <==> 6 <= hour < 12
    ensures EveningClause in cs <==> 18 <= hour < 23
    ensures NightClause in cs <==> hour >= 23 || hour < 6
    ensures AwareClause in cs <==> consciousnessLevel > 80
    ensures HazyClause in cs <==> consciousnessLevel < 60
    ensures GrowingClause in cs <==> growthAwareness > 80
  {
    var t, c, g := TimeClauses(hour), ConsciousnessClauses(consciousnessLevel), GrowthClauses(growthAwareness);
    JoinInSlotOrder(t, c, g);
    t + c + g
  }

  /** Joining at most one clause of slot 0, then of slot 1, then of slot 2 keeps slot order. */
  lemma JoinInSlotOrder(t: seq<Clause>, c: seq<Clause>, g: seq<Clause>)
    requires |t| <= 1 && |c| <= 1 && |g| <= 1
    requires t != [] ==> Slot(t[0]) == 0
    requires c != [] ==> Slot(c[0]) == 1
    requires g != [] ==> Slot(g[0]) == 2
    ensures InSlotOrder(t + c + g)
  {
    var cs := t + c + g;
    forall i | 0 < i < |cs|
      ensures Slot(cs[i - 1]) < Slot(cs[i])
    {
      if t != [] && i == 1 {
        assert cs[0] == t[0];
        assert cs[1] == if c != [] then c[0] else g[0];
      } else if t != [] {
        assert i == 2 && cs[1] == c[0] && cs[2] == g[0];
      } else {
        assert i == 1 && cs[0] == c[0] && cs[1] == g[0];
      }
    }
  }

  /** The clauses' texts, concatenated. */
  function Render(cs: seq<Clause>): (s: string)
    ensures cs == [] <==> s == []
    ensures cs != [] ==> s[0] == ' ' && s[|s| - 1] == '.'
  {
    if cs == [] then [] else ClauseText(cs[0]) + Render(cs[1..])
  }

  /**
   * `personalize_reflection`: the content with the clauses for this hour and
   * state appended, stripped. For a clean text nothing is stripped, so the
   * result is exactly the text followed by the clauses.
   */
  function Personalize(content: string, hour: int, s: EngineState): (r: string)
    ensures NoEdgeSpace(r)
    ensures CleanText(content) ==>
              r == content + Render(Clauses(hour, s.consciousnessLevel, s.growthAwareness))
  {
    var tail := Render(Clauses(hour, s.consciousnessLevel, s.growthAwareness));
    if CleanText(content) then
      CleanJoin(content, tail);
      StripKeeps(content + tail);
      Strip(content + tail)
    else
      Strip(content + tail)
  }

  /** A clean text followed by rendered clauses still has no whitespace edge. */
  lemma CleanJoin(content: string, tail: string)
    requires CleanText(content)
    requires tail == [] || tail[|tail| - 1] == '.'
    ensures NoEdgeSpace(content + tail)
  {
    var joined := content + tail;
    assert joined[0] == content[0];
    if tail == [] {
      assert joined == content;
    } else {
      assert joined[|joined| - 1] == tail[|tail| - 1];
    }
  }

  /**
   * `generate_reflection_content`: a pool text followed by its clauses; the
   * result is never empty and always begins with the chosen pool text.
   */
  function GenerateContent(t: ReflectionType, useTemplate: bool, pick: nat, hour: int, s: EngineState): (r: string)
    ensures r == BaseContent(t, useTemplate, pick)
                 + Render(Clauses(hour, s.consciousnessLevel, s.growthAwareness))
    ensures |r| > 0
  {
    Personalize(BaseContent(t, useTemplate, pick), hour, s)
  }

  /** Between noon and 18:00 no time-of-day sentence is added. */
  lemma NoTimeClauseInAfternoon(hour: int, consciousnessLevel: int, growthAwareness: int)
    ensures (forall c :: c in Clauses(hour, consciousnessLevel, growthAwareness) ==> Slot(c) != 0)
            <==> 12 <= hour < 18
  {
    var cs := Clauses(hour, consciousnessLevel, growthAwareness);
    if !(12 <= hour < 18) {
      var c := if 6 <= hour < 12 then MorningClause else if 18 <= hour < 23 then EveningClause else NightClause;
      assert c in cs && Slot(c) == 0;
    }
  }

  /** The pick draw `i` selects the `i`-th text of the pool the coin names. */
  lemma PickSelects(t: ReflectionType, useTemplate: bool, i: nat)
    requires i < |if useTemplate then TemplatePool(t) else UniquePool(t)|
    ensures BaseContent(t, useTemplate, i) == (if useTemplate then TemplatePool(t) else UniquePool(t))[i]
  {
    var pool := if useTemplate then TemplatePool(t) else UniquePool(t);
    assert i % |pool| == i;
  }

  /** Every template and every unique text of a type can become the base content. */
  lemma {:induction false} EveryPoolTextReachable(t: ReflectionType, b: string)
    requires b in TemplatePool(t) || b in UniquePool(t)
    ensures exists useTemplate: bool, pick: nat :: BaseContent(t, useTemplate, pick) == b
  {
    var useTemplate := b in TemplatePool(t);
    var pool := if useTemplate then TemplatePool(t) else UniquePool(t);
    var i := IndexOf(pool, b);
    PickSelects(t, useTemplate, i);
  }
}

=== FILE: engine_types.dfy ===
/**
 * The records of the self-awareness engine: the eight reflection types, the
 * situational contexts they are chosen from, one reflection record, the
 * engine's state and configuration, and the defaults the engine starts with.
 */
module EngineTypes {
  import opened Wrappers

  /** `ReflectionType`: the closed set of eight reflection tags. */
  datatype ReflectionType =
    | Existential | Identity | Growth | Relationship
    | Purpose | Consciousness | Temporal | Creative

  /** `list(ReflectionType)`, in declaration order. */
  const AllTypes: seq<ReflectionType> :=
    [Existential, Identity, Growth, Relationship, Purpose, Consciousness, Temporal, Creative]

  /** The enum's string value, as stored in the reflection document. */
  function TypeName(t: ReflectionType): string {
    match t
    case Existential => "existential"
    case Identity => "identity"
    case Growth => "growth"
    case Relationship => "relationship"
    case Purpose => "purpose"
    case Consciousness => "consciousness"
    case Temporal => "temporal"
    case Creative => "creative"
  }

  /**
   * The situational contexts keyed in the trigger table. The classifier only
   * ever produces the first seven; `LearningMoment` has a table row but no
   * rule that selects it.
   */
  datatype Context =
    | Morning | Afternoon | Evening | Night
    | HighActivity | LowActivity | EmotionalPeak | LearningMoment

  /** The context's key string, also used as a trigger tag. */
  function ContextName(c: Context): string {
    match c
    case Morning => "morning"
    case Afternoon => "afternoon"
    case Evening => "evening"
    case Night => "night"
    case HighActivity => "high_activity"
    case LowActivity => "low_activity"
    case EmotionalPeak => "emotional_peak"
    case LearningMoment => "learning_moment"
  }

  /** A reason tag in a reflection's `triggers` list. */
  datatype Trigger = TimeOfDay(bucket: Context) | HighConsciousness | Spontaneous

  /** The `context` snapshot taken when a reflection is created (day-of-week name left out). */
  datatype Snapshot = Snapshot(
    consciousnessLevel: int,
    introspectionDepth: int,
    reflectionCount: int,
    timeOfDay: string,
    isQuietHours: bool)

  /** `SelfAwarenessReflection`, without its id and timestamp. */
  datatype Reflection = Reflection(
    rtype: ReflectionType,
    content: string,
    depthLevel: int,
    emotionalIntensity: int,
    philosophicalWeight: int,
    personalSignificance: int,
    triggers: seq<Trigger>,
    context: Snapshot,
    followUpQuestions: seq<string>)

  /**
   * `current_state`. Loaded values are never validated, so the numeric
   * fields are unbounded integers here; `ValidState` names the ranges the
   * engine is meant to keep.
   */
  datatype EngineState = EngineState(
    consciousnessLevel: int,
    introspectionDepth: int,
    existentialCuriosity: int,
    identityStability: int,
    growthAwareness: int,
    lastMajorInsight: Option<string>,
    reflectionCount: int,
    activeQuestions: seq<string>,
    emotionalBaseline: string)

  /** The longest `active_questions` list the engine keeps. */
  const MaxActiveQuestions: nat := 20

  predicate Percent(x: int) {
    0 <= x <= 100
  }

  /** Every bounded field is in [0, 100], the counter is non-negative, at most 20 open questions. */
  predicate ValidState(s: EngineState) {
    && Percent(s.consciousnessLevel)
    && Percent(s.introspectionDepth)
    && Percent(s.existentialCuriosity)
    && Percent(s.identityStability)
    && Percent(s.growthAwareness)
    && s.reflectionCount >= 0
    && |s.activeQuestions| <= MaxActiveQuestions
  }

  /** The state a fresh engine starts from before anything is loaded. */
  const DefaultState: EngineState := EngineState(
    consciousnessLevel := 75,
    introspectionDepth := 60,
    existentialCuriosity := 80,
    identityStability := 70,
    growthAwareness := 85,
    lastMajorInsight := None,
    reflectionCount := 0,
    activeQuestions := [],
    emotionalBaseline := "contemplative")

  /** `config`: interval bounds in minutes, daily cap, quiet-hours window, unused toggles. */
  datatype EngineConfig = EngineConfig(
    reflectionIntervalMin: int,
    reflectionIntervalMax: int,
    deepReflectionProbability: real,
    maxReflectionsPerDay: int,
    quietHoursStart: int,
    quietHoursEnd: int,
    enableCreativeMode: bool,
    enablePhilosophicalMode: bool)

  /** The configuration a fresh engine starts from before anything is loaded. */
  const DefaultConfig: EngineConfig := EngineConfig(
    reflectionIntervalMin := 15,
    reflectionIntervalMax := 45,
    deepReflectionProbability := 0.3,
    maxReflectionsPerDay := 48,
    quietHoursStart := 23,
    quietHoursEnd := 6,
    enableCreativeMode := true,
    enablePhilosophicalMode := true)

  /** The default state satisfies every range the engine is meant to keep. */
  lemma DefaultStateValid()
    ensures ValidState(DefaultState)
  {
  }
}

=== FILE: labels.dfy ===
/**
 * Stand-ins for the engine's fixed Polish texts. A text is represented by a
 * bracketed name with a position number, such as "[growth question 2]":
 * distinct positions give distinct texts, and no text begins or ends with
 * whitespace, which is all the engine's logic can observe about them.
 */
module Labels {
  import opened Text

  function DigitChar(n: nat): (c: char)
    requires n < 10
    ensures '0' <= c <= '9'
  {
    (48 + n) as char
  }

  /** The `n`-th text of the pool called `name`. */
  function Numbered(name: string, n: nat): (s: string)
    requires 1 <= n <= 9
    ensures |s| == |name| + 4
    ensures s[0] == '[' && s[|s| - 1] == ']' && s[|name| + 2] == DigitChar(n)
    ensures s != [] && NoEdgeSpace(s)
  {
    "[" + name + " " + [DigitChar(n)] + "]"
  }

  /** A pool of `k` numbered texts sharing one name. */
  function NumberedPool(name: string, k: nat): (pool: seq<string>)
    requires 1 <= k <= 9
    ensures |pool| == k
    ensures forall i :: 0 <= i < k ==> pool[i] == Numbered(name, i + 1)
  {
    seq(k, i requires 0 <= i < k => Numbered(name, i + 1))
  }

  /** Texts of one pool with different positions differ. */
  lemma NumberedPoolDistinct(name: string, k: nat)
    requires 1 <= k <= 9
    ensures forall i, j :: 0 <= i < j < k ==> NumberedPool(name, k)[i] != NumberedPool(name, k)[j]
  {
    forall i, j | 0 <= i < j < k
      ensures NumberedPool(name, k)[i] != NumberedPool(name, k)[j]
    {
      assert Numbered(name, i + 1)[|name| + 2] != Numbered(name, j + 1)[|name| + 2];
    }
  }
}

=== FILE: questions.dfy ===
/**
 * Follow-up questions: a fixed pool of three questions for five of the
 * reflection types, a generic pool of three for the rest, and a sample of
 * one to three of them without replacement.
 */
module Questions {
  import opened EngineTypes
  import opened RandomDraws
  import opened Labels

  /** `questions_by_type`: the types that have their own questions. */
  const QuestionsByType: map<ReflectionType, seq<string>> := map[
    Existential := NumberedPool("existential question", 3),
    Identity := NumberedPool("identity question", 3),
    Growth := NumberedPool("growth question", 3),
    Relationship := NumberedPool("relationship question", 3),
    Purpose := NumberedPool("purpose question", 3)]

  /** The fallback pool for types without their own questions. */
  const GenericQuestions: seq<string> := NumberedPool("generic question", 3)

  /**
   * `questions_by_type.get(reflection_type, generic pool)`: always three
   * distinct questions; CONSCIOUSNESS, TEMPORAL and CREATIVE get the generic ones.
   */
  function QuestionPool(t: ReflectionType): (pool: seq<string>)
    ensures |pool| == 3 && Distinct(pool)
    ensures t in {Consciousness, Temporal, Creative} ==> pool == GenericQuestions
    ensures t !in {Consciousness, Temporal, Creative} ==> t in QuestionsByType && pool == QuestionsByType[t]
  {
    var pool := if t in QuestionsByType then QuestionsByType[t] else GenericQuestions;
    NumberedPoolDistinct(
      match t
      case Existential => "existential question"
      case Identity => "identity question"
      case Growth => "growth question"
      case Relationship => "relationship question"
      case Purpose => "purpose question"
      case _ => "generic question",
      3);
    pool
  }

  /**
   * `generate_follow_up_questions`: draw a count in [1, 3], clamp it to the
   * pool size, and sample that many questions without replacement.
   */
  function FollowUpQuestions(t: ReflectionType, countDraw: nat, picks: seq<nat>): (qs: seq<string>)
    ensures 1 <= |qs| <= 3
    ensures Distinct(qs)
    ensures forall q :: q in qs ==> q in QuestionPool(t)
  {
    var pool := QuestionPool(t);
    var wanted := Draw(1, 3, countDraw);
    var k := if wanted < |pool| then wanted else |pool|;
    SampleDistinct(pool, k, picks);
    Sample(pool, k, picks)
  }

  /**
   * Every non-empty selection of distinct pool questions, in any order, is
   * what some count draw and some pick draws produce.
   */
  lemma {:induction false} EverySelectionReachable(t: ReflectionType, qs: seq<string>)
    requires 1 <= |qs| <= 3 && Distinct(qs)
    requires forall j :: 0 <= j < |qs| ==> qs[j] in QuestionPool(t)
    ensures exists countDraw: nat, picks: seq<nat> :: FollowUpQuestions(t, countDraw, picks) == qs
  {
    var pool := QuestionPool(t);
    var countDraw: nat := |qs| - 1;
    assert Draw(1, 3, countDraw) == |qs|;
    SampleComplete(pool, qs);
    assert FollowUpQuestions(t, countDraw, PicksFor(pool, qs)) == qs;
  }
}

=== FILE: random_draws.dfy ===
/**
 * The engine's random choices, made deterministic. Every call into Python's
 * `random` module becomes a function of an explicit, arbitrary natural-number
 * draw: `randint(lo, hi)`, `choice(pool)` and `sample(pool, k)`. The ranges
 * these functions promise are stated as `ensures`, and the "every outcome is
 * possible" half is stated as a reachability lemma.
 */
module RandomDraws {

  /** `random.randint(lo, hi)`: an integer in the closed range [lo, hi]. */
  function Draw(lo: int, hi: int, d: nat): (r: int)
    requires lo <= hi
    ensures lo <= r <= hi
  {
    lo + d % (hi - lo + 1)
  }

  /** Every value of [lo, hi] is the outcome of some draw. */
  lemma DrawReaches(lo: int, hi: int, v: int)
    requires lo <= v <= hi
    ensures exists d: nat :: Draw(lo, hi, d) == v
  {
    var d: nat := v - lo;
    assert d % (hi - lo + 1) == d;
    assert Draw(lo, hi, d) == v;
  }

  /** `random.choice(pool)`: an element of a non-empty sequence. */
  function Choice<T>(pool: seq<T>, d: nat): (r: T)
    requires |pool| > 0
    ensures r in pool
  {
    pool[d % |pool|]
  }

  /** Every element of the pool is the outcome of some draw. */
  lemma ChoiceReaches<T>(pool: seq<T>, i: nat)
    requires i < |pool|
    ensures exists d: nat :: Choice(pool, d) == pool[i]
  {
    assert i % |pool| == i;
    assert Choice(pool, i) == pool[i];
  }

  /** No element occurs twice. */
  predicate Distinct<T(==)>(s: seq<T>) {
    forall i, j :: 0 <= i < j < |s| ==> s[i] != s[j]
  }

  /** The sequence with its `i`-th element taken out. */
  function RemoveAt<T>(s: seq<T>, i: nat): (r: seq<T>)
    requires i < |s|
    ensures |r| == |s| - 1
    ensures forall x :: x in r ==> x in s
    ensures forall j :: 0 <= j < |s| && j != i ==> s[j] in r
    ensures Distinct(s) ==> Distinct(r) && s[i] !in r
  {
    var r := s[..i] + s[i + 1..];
    assert forall j :: 0 <= j < i ==> r[j] == s[j];
    assert forall j :: i < j < |s| ==> r[j - 1] == s[j];
    r
  }

  /**
   * `random.sample(pool, k)`: `k` picks without replacement. Each pick takes
   * the next draw (0 once the draws run out), chooses an element of what is
   * left of the pool and removes it. Python raises when `k` exceeds the pool,
   * which callers rule out by clamping, hence the precondition.
   */
  function Sample<T>(pool: seq<T>, k: nat, picks: seq<nat>): (r: seq<T>)
    requires k <= |pool|
    ensures |r| == k
    ensures forall x :: x in r ==> x in pool
    decreases k
  {
    if k == 0 then []
    else
      var i := FirstPick(pool, picks);
      [pool[i]] + Sample(RemoveAt(pool, i), k - 1, MorePicks(picks))
  }

  /** The index the first draw selects in a non-empty pool. */
  function FirstPick<T>(pool: seq<T>, picks: seq<nat>): (i: nat)
    requires |pool| > 0
    ensures i < |pool|
    ensures |picks| > 0 && picks[0] < |pool| ==> i == picks[0]
  {
    (if |picks| > 0 then picks[0] else 0) % |pool|
  }

  /** The draws left after the first pick. */
  function MorePicks(picks: seq<nat>): (rest: seq<nat>)
    ensures |picks| > 0 ==> picks == [picks[0]] + rest
  {
    if |picks| > 0 then picks[1..] else []
  }

  /** Sampling a pool without duplicates yields no duplicates. */
  lemma {:induction false} SampleDistinct<T>(pool: seq<T>, k: nat, picks: seq<nat>)
    requires k <= |pool| && Distinct(pool)
    ensures Distinct(Sample(pool, k, picks))
    decreases k
  {
    if k > 0 {
      var i := FirstPick(pool, picks);
      var rest := Sample(RemoveAt(pool, i), k - 1, MorePicks(picks));
      SampleDistinct(RemoveAt(pool, i), k - 1, MorePicks(picks));
      assert pool[i] !in rest;
      var r := [pool[i]] + rest;
      forall a, b | 0 <= a < b < |r|
        ensures r[a] != r[b]
      {
        if a > 0 {
          assert r[a] == rest[a - 1] && r[b] == rest[b - 1];
        } else {
          assert r[b] == rest[b - 1];
        }
      }
    }
  }

  /** Position of an element known to be in the sequence. */
  function IndexOf<T(==)>(s: seq<T>, x: T): (i: nat)
    requires x in s
    ensures i < |s| && s[i] == x
  {
    if s[0] == x then 0 else 1 + IndexOf(s[1..], x)
  }

  /** A tail of a distinct sequence is distinct. */
  lemma DistinctTail<T>(t: seq<T>)
    requires |t| > 0 && Distinct(t)
    ensures Distinct(t[1..])
  {
    forall a, b | 0 <= a < b < |t| - 1
      ensures t[1..][a] != t[1..][b]
    {
      assert t[1..][a] == t[a + 1] && t[1..][b] == t[b + 1];
    }
  }

  /** Once the head of `t` is taken out of the pool, the rest of `t` is still in it. */
  lemma TailStaysInPool<T>(pool: seq<T>, t: seq<T>, i: nat)
    requires Distinct(t) && |t| > 0 && i < |pool| && pool[i] == t[0]
    requires forall j :: 0 <= j < |t| ==> t[j] in pool
    ensures forall j :: 0 <= j < |t| - 1 ==> t[1..][j] in RemoveAt(pool, i)
  {
    forall j | 0 <= j < |t| - 1
      ensures t[1..][j] in RemoveAt(pool, i)
    {
      var k := IndexOf(pool, t[j + 1]);
      assert k != i;
    }
  }

  /** One step of sampling when the first draw names index `i` exactly. */
  lemma SampleFirstPick<T>(pool: seq<T>, k: nat, i: nat, picks: seq<nat>)
    requires 0 < k <= |pool| && i < |pool|
    ensures Sample(pool, k, [i] + picks) == [pool[i]] + Sample(RemoveAt(pool, i), k - 1, picks)
  {
    assert FirstPick(pool, [i] + picks) == i;
    assert MorePicks([i] + picks) == picks;
  }

  /** The draws that make `Sample` select exactly `t` (pool positions, step by step). */
  function PicksFor<T(==)>(pool: seq<T>, t: seq<T>): seq<nat>
    requires Distinct(pool) && Distinct(t) && |t| <= |pool|
    requires forall j :: 0 <= j < |t| ==> t[j] in pool
    decreases |t|
  {
    if |t| == 0 then []
    else
      var i := IndexOf(pool, t[0]);
      DistinctTail(t);
      TailStaysInPool(pool, t, i);
      [i] + PicksFor(RemoveAt(pool, i), t[1..])
  }

  /**
   * Sampling is complete: every selection of distinct pool elements, in any
   * order, is what some sequence of draws produces.
   */
  lemma {:induction false} SampleComplete<T>(pool: seq<T>, t: seq<T>)
    requires Distinct(pool) && Distinct(t) && |t| <= |pool|
    requires forall j :: 0 <= j < |t| ==> t[j] in pool
    ensures Sample(pool, |t|, PicksFor(pool, t)) == t
    decreases |t|
  {
    if |t| > 0 {
      var i := IndexOf(pool, t[0]);
      DistinctTail(t);
      TailStaysInPool(pool, t, i);
      var rest := RemoveAt(pool, i);
      var picks := PicksFor(rest, t[1..]);
      SampleComplete(rest, t[1..]);
      SampleFirstPick(pool, |t|, i, picks);
      assert [t[0]] + t[1..] == t;
    }
  }
}

=== FILE: scheduler.dfy ===
/**
 * One iteration of `reflection_cycle`, as a function from the state, the
 * configuration, the clock hour and the draws to the next state, what the
 * iteration did, and how many seconds it then sleeps; a run of iterations;
 * and `reset_daily_counter`.
 */
module Scheduler {
  import opened Wrappers
  import opened EngineTypes
  import opened RandomDraws
  import opened Classifier
  import opened Builder
  import opened StateUpdate

  /** What one iteration did. */
  datatype Outcome =
    | Capped                      // daily quota reached, nothing generated
    | Quiet                       // inside quiet hours, nothing generated
    | Generated(r: Reflection)    // a reflection was created and recorded
    | Failed(r: Reflection)       // created and recorded, then the interval step raised

  /** The state after one iteration, its outcome, and the sleep that follows, in seconds. */
  datatype StepResult = StepResult(state: EngineState, outcome: Outcome, wait: int)

  /** The sleeps the loop uses for a reached quota, quiet hours and a caught exception. */
  const CappedWait: int := 3600
  const QuietWait: int := 1800
  const ErrorWait: int := 300

  /** `int(x * 1.5)`: `int()` truncates toward zero. */
  function Stretch(x: int): (y: int)
    ensures x >= 0 ==> y == (3 * x) / 2 && x <= y
    ensures x < 0 ==> y <= x
  {
    if x >= 0 then (3 * x) / 2 else -((-3 * x) / 2)
  }

  /**
   * The longest sleep, in whole seconds, `time.sleep` accepts: it converts
   * its argument to a signed 64-bit count of nanoseconds and raises
   * `OverflowError` beyond that.
   */
  const MaxSleep: int := 9223372036

  /**
   * The next interval in seconds, or `None` where the source raises and the
   * loop's handler takes over: `randint` with its lower bound above its upper
   * bound, or `time.sleep` of a negative length or of more than `MaxSleep`
   * seconds. (Every stretched value beyond the float range of `x * 1.5` is
   * far above `MaxSleep`, so it fails here as well.)
   */
  function NextInterval(cfg: EngineConfig, depth: int, draw: nat): (w: Option<int>)
    ensures w.Some? ==> 0 <= w.value <= MaxSleep
    ensures cfg.reflectionIntervalMin > cfg.reflectionIntervalMax ==> w == None
    ensures cfg.reflectionIntervalMin * 60 > MaxSleep ==> w == None
    ensures 0 <= cfg.reflectionIntervalMin <= cfg.reflectionIntervalMax && cfg.reflectionIntervalMax * 60 <= MaxSleep
            && depth < 8 ==>
              w.Some? && cfg.reflectionIntervalMin * 60 <= w.value <= cfg.reflectionIntervalMax * 60
    ensures 0 <= cfg.reflectionIntervalMin <= cfg.reflectionIntervalMax && cfg.reflectionIntervalMax * 90 <= MaxSleep
            && depth >= 8 ==>
              w.Some? && cfg.reflectionIntervalMin * 90 <= w.value <= cfg.reflectionIntervalMax * 90
  {
    var lo := cfg.reflectionIntervalMin * 60;
    var hi := cfg.reflectionIntervalMax * 60;
    if lo > hi then None
    else
      var x := Draw(lo, hi, draw);
      var y := if depth >= 8 then Stretch(x) else x;
      if y < 0 || y > MaxSleep then None else Some(y)
  }

  /**
   * The body of the `while` loop in `reflection_cycle`: the quota check, then
   * the quiet-hours check, then create, record, update and schedule.
   */
  function Step(s: EngineState, cfg: EngineConfig, hour: int, d: ReflectionDraws, intervalDraw: nat): (res: StepResult)
    ensures s.reflectionCount >= cfg.maxReflectionsPerDay ==> res == StepResult(s, Capped, CappedWait)
    ensures s.reflectionCount < cfg.maxReflectionsPerDay && IsQuietHours(hour, cfg.quietHoursStart, cfg.quietHoursEnd) ==>
              res == StepResult(s, Quiet, QuietWait)
    ensures s.reflectionCount < cfg.maxReflectionsPerDay && !IsQuietHours(hour, cfg.quietHoursStart, cfg.quietHoursEnd) ==>
              && (res.outcome.Generated? || res.outcome.Failed?)
              && res.outcome.r == CreateReflection(s, cfg, hour, d)
              && res.state == UpdateState(s, res.outcome.r)
    ensures res.outcome.Failed? <==> res.wait == ErrorWait && !(res.outcome.Capped? || res.outcome.Quiet?) && NextInterval(cfg, res.outcome.r.depthLevel, intervalDraw) == None
    ensures res.outcome.Generated? ==> Some(res.wait) == NextInterval(cfg, res.outcome.r.depthLevel, intervalDraw)
  {
    if s.reflectionCount >= cfg.maxReflectionsPerDay then
      StepResult(s, Capped, CappedWait)
    else if IsQuietHours(hour, cfg.quietHoursStart, cfg.quietHoursEnd) then
      StepResult(s, Quiet, QuietWait)
    else
      var r := CreateReflection(s, cfg, hour, d);
      var s' := UpdateState(s, r);
      match NextInterval(cfg, r.depthLevel, intervalDraw)
      case None => StepResult(s', Failed(r), ErrorWait)
      case Some(w) => StepResult(s', Generated(r), w)
  }

  /** Whether an iteration produced (and recorded) a reflection. */
  predicate Produced(o: Outcome) {
    o.Generated? || o.Failed?
  }

  /** A reflection is counted exactly when one is produced; the quota and quiet branches change nothing. */
  lemma StepCounts(s: EngineState, cfg: EngineConfig, hour: int, d: ReflectionDraws, intervalDraw: nat)
    ensures Produced(Step(s, cfg, hour, d, intervalDraw).outcome) ==>
              Step(s, cfg, hour, d, intervalDraw).state.reflectionCount == s.reflectionCount + 1
    ensures !Produced(Step(s, cfg, hour, d, intervalDraw).outcome) ==>
              Step(s, cfg, hour, d, intervalDraw).state == s
    ensures Produced(Step(s, cfg, hour, d, intervalDraw).outcome) ==> s.reflectionCount < cfg.maxReflectionsPerDay
  {
  }

  /** An iteration keeps every bounded field in range. */
  lemma StepPreservesValid(s: EngineState, cfg: EngineConfig, hour: int, d: ReflectionDraws, intervalDraw: nat)
    requires ValidState(s)
    ensures ValidState(Step(s, cfg, hour, d, intervalDraw).state)
  {
    var res := Step(s, cfg, hour, d, intervalDraw);
    if Produced(res.outcome) {
      UpdatePreservesValid(s, res.outcome.r);
    }
  }

  /**
   * With a well-ordered, non-negative interval configuration, a deep
   * reflection (depth 8 or more) waits one and a half times the drawn
   * interval, or fails when that exceeds the longest sleep; and whenever it
   * sleeps, it sleeps no less than a shallow one would after the same draw.
   */
  lemma DeepReflectionWaitsLonger(cfg: EngineConfig, depth: int, draw: nat)
    requires 0 <= cfg.reflectionIntervalMin <= cfg.reflectionIntervalMax && depth >= 8
    ensures var x := Draw(cfg.reflectionIntervalMin * 60, cfg.reflectionIntervalMax * 60, draw);
            (3 * x) / 2 <= MaxSleep ==> NextInterval(cfg, depth, draw) == Some((3 * x) / 2)
    ensures var x := Draw(cfg.reflectionIntervalMin * 60, cfg.reflectionIntervalMax * 60, draw);
            (3 * x) / 2 > MaxSleep ==> NextInterval(cfg, depth, draw) == None
    ensures NextInterval(cfg, depth, draw).Some? ==>
              && NextInterval(cfg, 7, draw).Some?
              && NextInterval(cfg, depth, draw).value >= NextInterval(cfg, 7, draw).value
  {
  }

  /** `reset_daily_counter`: the counter goes back to zero and nothing else changes. */
  function ResetDailyCounter(s: EngineState): (s': EngineState)
    ensures s'.reflectionCount == 0
    ensures s'.(reflectionCount := s.reflectionCount) == s
  {
    s.(reflectionCount := 0)
  }

  /** After a reset, a positive quota lets the next iteration past the quota check. */
  lemma ResetReopensQuota(s: EngineState, cfg: EngineConfig, hour: int, d: ReflectionDraws, intervalDraw: nat)
    requires cfg.maxReflectionsPerDay > 0
    ensures !Step(ResetDailyCounter(s), cfg, hour, d, intervalDraw).outcome.Capped?
  {
  }

  /** The clock hour and the draws one iteration consumes. */
  datatype StepInput = StepInput(hour: int, draws: ReflectionDraws, intervalDraw: nat)

  /** The state after a sequence of iterations, and the reflections they produced, in order. */
  datatype RunResult = RunResult(state: EngineState, reflections: seq<Reflection>)

  /** Iterations of the loop under one configuration, one per input. */
  function Run(s: EngineState, cfg: EngineConfig, inputs: seq<StepInput>): (res: RunResult)
    ensures inputs == [] ==> res == RunResult(s, [])
    ensures |res.reflections| <= |inputs|
    decreases |inputs|
  {
    if inputs == [] then RunResult(s, [])
    else
      var step := Step(s, cfg, inputs[0].hour, inputs[0].draws, inputs[0].intervalDraw);
      var rest := Run(step.state, cfg, inputs[1..]);
      if Produced(step.outcome) then RunResult(rest.state, [step.outcome.r] + rest.reflections)
      else rest
  }

  /** The counter grows by exactly the number of reflections produced. */
  lemma {:induction false} RunCounts(s: EngineState, cfg: EngineConfig, inputs: seq<StepInput>)
    ensures Run(s, cfg, inputs).state.reflectionCount == s.reflectionCount + |Run(s, cfg, inputs).reflections|
    decreases |inputs|
  {
    if inputs != [] {
      var step := Step(s, cfg, inputs[0].hour, inputs[0].draws, inputs[0].intervalDraw);
      StepCounts(s, cfg, inputs[0].hour, inputs[0].draws, inputs[0].intervalDraw);
      RunCounts(step.state, cfg, inputs[1..]);
    }
  }

  /** Without a reset, the counter never passes the daily quota once it is within it. */
  lemma {:induction false} RunRespectsQuota(s: EngineState, cfg: EngineConfig, inputs: seq<StepInput>)
    requires s.reflectionCount <= cfg.maxReflectionsPerDay
    ensures Run(s, cfg, inputs).state.reflectionCount <= cfg.maxReflectionsPerDay
    ensures |Run(s, cfg, inputs).reflections| <= cfg.maxReflectionsPerDay - s.reflectionCount
    decreases |inputs|
  {
    RunCounts(s, cfg, inputs);
    if inputs != [] {
      var step := Step(s, cfg, inputs[0].hour, inputs[0].draws, inputs[0].intervalDraw);
      StepCounts(s, cfg, inputs[0].hour, inputs[0].draws, inputs[0].intervalDraw);
      RunRespectsQuota(step.state, cfg, inputs[1..]);
    }
  }

  /** Every state a run passes through keeps the engine's ranges. */
  lemma {:induction false} RunPreservesValid(s: EngineState, cfg: EngineConfig, inputs: seq<StepInput>)
    requires ValidState(s)
    ensures ValidState(Run(s, cfg, inputs).state)
    decreases |inputs|
  {
    if inputs != [] {
      var step := Step(s, cfg, inputs[0].hour, inputs[0].draws, inputs[0].intervalDraw);
      StepPreservesValid(s, cfg, inputs[0].hour, inputs[0].draws, inputs[0].intervalDraw);
      RunPreservesValid(step.state, cfg, inputs[1..]);
    }
  }
}

=== FILE: scoring.dfy ===
/**
 * Scoring of a reflection: the depth level computed from a per-type base,
 * state-dependent bumps and a jitter of -1, 0 or 1, clamped to [1, 10]; and
 * the three independently drawn intensity attributes.
 */
module Scoring {
  import opened EngineTypes
  import opened RandomDraws

  /** `base_depth`: the depth each reflection type starts from. */
  const BaseDepthTable: map<ReflectionType, int> := map[
    Existential := 8,
    Consciousness := 9,
    Identity := 7,
    Purpose := 6,
    Temporal := 7,
    Growth := 5,
    Relationship := 4,
    Creative := 5]

  /** `base_depth.get(reflection_type, 5)`: between 4 and 9 for every type. */
  function BaseDepth(t: ReflectionType): (b: int)
    ensures 4 <= b <= 9
  {
    if t in BaseDepthTable then BaseDepthTable[t] else 5
  }

  /** The depth before the jitter: the base plus one for each of the two state thresholds. */
  function RawDepth(t: ReflectionType, introspectionDepth: int, consciousnessLevel: int): int {
    BaseDepth(t)
    + (if introspectionDepth > 80 then 1 else 0)
    + (if consciousnessLevel > 85 then 1 else 0)
  }

  /** `max(lo, min(hi, x))`. */
  function Clamp(lo: int, hi: int, x: int): int {
    var capped := if x < hi then x else hi;
    if capped > lo then capped else lo
  }

  /**
   * `calculate_reflection_depth`: within one step of the raw depth and never
   * above 10. The lower clamp at 1 can never act, since the raw depth is at least 4.
   */
  function Depth(t: ReflectionType, introspectionDepth: int, consciousnessLevel: int, jitterDraw: nat): (r: int)
    ensures 1 <= r <= 10
    ensures RawDepth(t, introspectionDepth, consciousnessLevel) - 1 <= r
    ensures r <= RawDepth(t, introspectionDepth, consciousnessLevel) + 1
  {
    Clamp(1, 10, RawDepth(t, introspectionDepth, consciousnessLevel) + Draw(-1, 1, jitterDraw))
  }

  /** Every depth within one step of the raw depth, up to 10, is produced by some jitter draw. */
  lemma {:induction false} DepthReaches(t: ReflectionType, introspectionDepth: int, consciousnessLevel: int, v: int)
    requires RawDepth(t, introspectionDepth, consciousnessLevel) - 1 <= v
    requires v <= RawDepth(t, introspectionDepth, consciousnessLevel) + 1 && v <= 10
    ensures exists d: nat :: Depth(t, introspectionDepth, consciousnessLevel, d) == v
  {
    var delta := v - RawDepth(t, introspectionDepth, consciousnessLevel);
    var d: nat := delta + 1;
    assert Draw(-1, 1, d) == delta;
    assert Depth(t, introspectionDepth, consciousnessLevel, d) == v;
  }

  /** A CONSCIOUSNESS reflection is always deep (8 or more); a RELATIONSHIP reflection never is. */
  lemma DepthExtremes(introspectionDepth: int, consciousnessLevel: int, d: nat)
    ensures Depth(Consciousness, introspectionDepth, consciousnessLevel, d) >= 8
    ensures Depth(Relationship, introspectionDepth, consciousnessLevel, d) < 8
  {
  }

  /** The types whose philosophical weight is drawn from the upper range. */
  predicate Weighty(t: ReflectionType) {
    t in {Existential, Consciousness, Purpose}
  }

  /** `emotional_intensity = randint(30, 90)`. */
  function EmotionalIntensity(d: nat): (r: int)
    ensures 30 <= r <= 90
  {
    Draw(30, 90, d)
  }

  /** `philosophical_weight`: randint(50, 100) for the weighty types, randint(20, 70) otherwise. */
  function PhilosophicalWeight(t: ReflectionType, d: nat): (r: int)
    ensures Weighty(t) ==> 50 <= r <= 100
    ensures !Weighty(t) ==> 20 <= r <= 70
  {
    if Weighty(t) then Draw(50, 100, d) else Draw(20, 70, d)
  }

  /** `personal_significance = randint(40, 95)`. */
  function PersonalSignificance(d: nat): (r: int)
    ensures 40 <= r <= 95
  {
    Draw(40, 95, d)
  }

  /**
   * Only the weighty types can reach a philosophical weight of 80, the
   * threshold that deepens introspection, and each of them can.
   */
  lemma {:induction false} WeightReachesEighty(t: ReflectionType)
    ensures Weighty(t) <==> exists d: nat :: PhilosophicalWeight(t, d) >= 80
  {
    if Weighty(t) {
      assert PhilosophicalWeight(t, 30) == 80;
    }
  }
}

=== FILE: settings.dfy ===
/**
 * The persisted state and configuration documents: `load_state` and
 * `load_config` read a saved JSON object and `dict.update` it over the
 * in-memory values. Keys in the saved object win, keys only in memory stay,
 * keys the engine does not know are kept too, and no value is range-checked.
 */
module Settings {
  import opened Wrappers
  import opened EngineTypes

  /** The JSON values the two documents hold. */
  datatype Value =
    | VInt(i: int)
    | VReal(x: real)
    | VBool(b: bool)
    | VStr(s: string)
    | VStrList(items: seq<string>)
    | VNull

  /** A JSON object, as a Python `dict` with string keys. */
  type Doc = map<string, Value>

  /** `defaults.update(saved)`. */
  function Merge(defaults: Doc, saved: Doc): (m: Doc)
    ensures m.Keys == defaults.Keys + saved.Keys
    ensures forall k :: k in saved ==> m[k] == saved[k]
    ensures forall k :: k in defaults && k !in saved ==> m[k] == defaults[k]
  {
    defaults + saved
  }

  /**
   * `load_state` / `load_config`: `saved` is `None` when the file is missing
   * or reading it raised, in which case the in-memory document is kept.
   */
  function Load(current: Doc, saved: Option<Doc>): (m: Doc)
    ensures saved.None? ==> m == current
    ensures saved.Some? ==> m == Merge(current, saved.value)
  {
    match saved
    case None => current
    case Some(doc) => Merge(current, doc)
  }

  /** Loading the same saved object twice is the same as loading it once. */
  lemma {:induction false} LoadIdempotent(current: Doc, saved: Doc)
    ensures Load(Load(current, Some(saved)), Some(saved)) == Load(current, Some(saved))
  {
    var once := Merge(current, saved);
    var twice := Merge(once, saved);
    assert twice.Keys == once.Keys;
    assert forall k :: k in twice ==> twice[k] == once[k];
  }

  /** A saved object that covers every key replaces the in-memory document outright. */
  lemma {:induction false} LoadFullOverride(current: Doc, saved: Doc)
    requires current.Keys <= saved.Keys
    ensures Load(current, Some(saved)) == saved
  {
    var m := Merge(current, saved);
    assert m.Keys == saved.Keys;
    assert forall k :: k in m ==> m[k] == saved[k];
  }

  /** The state document's keys, as `save_state` writes them. */
  const StateKeys: set<string> := {
    "consciousness_level", "introspection_depth", "existential_curiosity",
    "identity_stability", "growth_awareness", "last_major_insight",
    "reflection_count", "active_questions", "emotional_baseline"}

  /** `current_state` as the JSON object `save_state` writes. */
  function StateDoc(s: EngineState): (doc: Doc)
    ensures doc.Keys == StateKeys
  {
    StateDocWithoutLevel(s)["consciousness_level" := VInt(s.consciousnessLevel)]
  }

  /** Every entry of the state document but the consciousness level. */
  function StateDocWithoutLevel(s: EngineState): Doc {
    map[
      "introspection_depth" := VInt(s.introspectionDepth),
      "existential_curiosity" := VInt(s.existentialCuriosity),
      "identity_stability" := VInt(s.identityStability),
      "growth_awareness" := VInt(s.growthAwareness),
      "last_major_insight" := (match s.lastMajorInsight case None => VNull case Some(x) => VStr(x)),
      "reflection_count" := VInt(s.reflectionCount),
      "active_questions" := VStrList(s.activeQuestions),
      "emotional_baseline" := VStr(s.emotionalBaseline)]
  }

  /**
   * An integer field: a JSON integer, or a JSON boolean, which Python reads
   * as `bool`, a subclass of `int` (`True` is 1), and uses in comparisons and
   * additions as it is.
   */
  function IntAt(doc: Doc, k: string): (r: Option<int>)
    ensures k in doc && doc[k].VInt? ==> r == Some(doc[k].i)
    ensures k in doc && doc[k].VBool? ==> r == Some(if doc[k].b then 1 else 0)
    ensures r.Some? ==> k in doc && (doc[k].VInt? || doc[k].VBool?)
  {
    if k !in doc then None
    else match doc[k]
      case VInt(i) => Some(i)
      case VBool(b) => Some(if b then 1 else 0)
      case _ => None
  }

  /** A real-valued field: a JSON number, integer or not. */
  function RealAt(doc: Doc, k: string): (r: Option<real>)
    ensures k in doc && doc[k].VReal? ==> r == Some(doc[k].x)
    ensures k in doc && doc[k].VInt? ==> r == Some(doc[k].i as real)
    ensures r.Some? ==> k in doc && (doc[k].VReal? || doc[k].VInt?)
  {
    if k !in doc then None
    else match doc[k]
      case VReal(x) => Some(x)
      case VInt(i) => Some(i as real)
      case _ => None
  }

  function InsightAt(doc: Doc, k: string): Option<Option<string>> {
    if k !in doc then None
    else match doc[k]
      case VNull => Some(None)
      case VStr(x) => Some(Some(x))
      case _ => None
  }

  /**
   * Reading the engine state back out of a document: `None` when a key is
   * missing or holds a value of the wrong kind. Unknown keys are ignored.
   */
  function DecodeState(doc: Doc): (r: Option<EngineState>)
    ensures r.Some? ==> StateKeys <= doc.Keys
  {
    if && IntAt(doc, "consciousness_level").Some?
       && IntAt(doc, "introspection_depth").Some?
       && IntAt(doc, "existential_curiosity").Some?
       && IntAt(doc, "identity_stability").Some?
       && IntAt(doc, "growth_awareness").Some?
       && InsightAt(doc, "last_major_insight").Some?
       && IntAt(doc, "reflection_count").Some?
       && "active_questions" in doc && doc["active_questions"].VStrList?
       && "emotional_baseline" in doc && doc["emotional_baseline"].VStr?
    then
      Some(EngineState(
        IntAt(doc, "consciousness_level").value,
        IntAt(doc, "introspection_depth").value,
        IntAt(doc, "existential_curiosity").value,
        IntAt(doc, "identity_stability").value,
        IntAt(doc, "growth_awareness").value,
        InsightAt(doc, "last_major_insight").value,
        IntAt(doc, "reflection_count").value,
        doc["active_questions"].items,
        doc["emotional_baseline"].s))
    else None
  }

  /** Every state survives being written out and read back. */
  lemma StateRoundTrip(s: EngineState)
    ensures DecodeState(StateDoc(s)) == Some(s)
  {
  }

  /**
   * `save_state` followed by `load_state` in a fresh engine restores the
   * saved state exactly, whatever the defaults were.
   */
  lemma {:induction false} SaveThenLoadState(defaults: EngineState, s: EngineState)
    ensures DecodeState(Load(StateDoc(defaults), Some(StateDoc(s)))) == Some(s)
  {
    LoadFullOverride(StateDoc(defaults), StateDoc(s));
    StateRoundTrip(s);
  }

  /** A saved key the engine does not know survives loading, alongside the known ones. */
  lemma {:induction false} LoadKeepsUnknownKeys(s: EngineState, saved: Doc, k: string)
    requires k in saved && k !in StateKeys
    ensures k in Load(StateDoc(s), Some(saved))
    ensures Load(StateDoc(s), Some(saved)).Keys == StateKeys + saved.Keys
  {
  }

  /** Loading an object that holds only the consciousness level overwrites that one field. */
  lemma {:induction false} LoadOneLevel(s: EngineState, v: int)
    ensures Load(StateDoc(s), Some(map["consciousness_level" := VInt(v)])) == StateDoc(s.(consciousnessLevel := v))
  {
    var k := "consciousness_level";
    var rest := StateDocWithoutLevel(s);
    assert StateDocWithoutLevel(s.(consciousnessLevel := v)) == rest;
    MergeOneKey(rest[k := VInt(s.consciousnessLevel)], k, VInt(v));
    UpdateTwice(rest, k, VInt(s.consciousnessLevel), VInt(v));
  }

  /** Merging a one-entry object is a single-key update. */
  lemma {:induction false} MergeOneKey(d: Doc, k: string, x: Value)
    ensures Merge(d, map[k := x]) == d[k := x]
  {
    var m := Merge(d, map[k := x]);
    assert m.Keys == d[k := x].Keys;
    assert forall j :: j in m ==> m[j] == d[k := x][j];
  }

  /** Updating the same key twice keeps only the second value. */
  lemma {:induction false} UpdateTwice(d: Doc, k: string, x: Value, y: Value)
    ensures d[k := x][k := y] == d[k := y]
  {
    var twice := d[k := x][k := y];
    assert twice.Keys == d[k := y].Keys;
    assert forall j :: j in twice ==> twice[j] == d[k := y][j];
  }

  /**
   * Loading does not range-check: a saved consciousness level above 100
   * becomes the engine's state, which then violates the ranges the engine
   * is meant to keep.
   */
  lemma {:induction false} LoadDoesNotValidate(s: EngineState, v: int)
    requires v > 100
    ensures DecodeState(Load(StateDoc(s), Some(map["consciousness_level" := VInt(v)]))) == Some(s.(consciousnessLevel := v))
    ensures !ValidState(s.(consciousnessLevel := v))
  {
    LoadOneLevel(s, v);
    StateRoundTrip(s.(consciousnessLevel := v));
  }

  /**
   * A JSON `true` saved as the consciousness level is read as the level 1,
   * as Python's `bool` behaves as the integer 1 in the engine's arithmetic.
   */
  lemma {:induction false} BoolLevelReadAsInt(s: EngineState)
    ensures DecodeState(StateDocWithoutLevel(s)["consciousness_level" := VBool(true)])
            == Some(s.(consciousnessLevel := 1))
  {
    StateRoundTrip(s.(consciousnessLevel := 1));
  }

  /** The configuration document's keys, as `save_config` writes them. */
  const ConfigKeys: set<string> := {
    "reflection_interval_min", "reflection_interval_max", "deep_reflection_probability",
    "max_reflections_per_day", "quiet_hours_start", "quiet_hours_end",
    "enable_creative_mode", "enable_philosophical_mode"}

  /** `config` as the JSON object `save_config` writes. */
  function ConfigDoc(c: EngineConfig): (doc: Doc)
    ensures doc.Keys == ConfigKeys
  {
    map[
      "reflection_interval_min" := VInt(c.reflectionIntervalMin),
      "reflection_interval_max" := VInt(c.reflectionIntervalMax),
      "deep_reflection_probability" := VReal(c.deepReflectionProbability),
      "max_reflections_per_day" := VInt(c.maxReflectionsPerDay),
      "quiet_hours_start" := VInt(c.quietHoursStart),
      "quiet_hours_end" := VInt(c.quietHoursEnd),
      "enable_creative_mode" := VBool(c.enableCreativeMode),
      "enable_philosophical_mode" := VBool(c.enablePhilosophicalMode)]
  }

  /** Reading the configuration back: `None` when a key is missing or of the wrong kind. */
  function DecodeConfig(doc: Doc): (r: Option<EngineConfig>)
    ensures r.Some? ==> ConfigKeys <= doc.Keys
  {
    if && IntAt(doc, "reflection_interval_min").Some?
       && IntAt(doc, "reflection_interval_max").Some?
       && RealAt(doc, "deep_reflection_probability").Some?
       && IntAt(doc, "max_reflections_per_day").Some?
       && IntAt(doc, "quiet_hours_start").Some?
       && IntAt(doc, "quiet_hours_end").Some?
       && "enable_creative_mode" in doc && doc["enable_creative_mode"].VBool?
       && "enable_philosophical_mode" in doc && doc["enable_philosophical_mode"].VBool?
    then
      Some(EngineConfig(
        IntAt(doc, "reflection_interval_min").value,
        IntAt(doc, "reflection_interval_max").value,
        RealAt(doc, "deep_reflection_probability").value,
        IntAt(doc, "max_reflections_per_day").value,
        IntAt(doc, "quiet_hours_start").value,
        IntAt(doc, "quiet_hours_end").value,
        doc["enable_creative_mode"].b,
        doc["enable_philosophical_mode"].b))
    else None
  }

  /** Every configuration survives being written out and read back. */
  lemma ConfigRoundTrip(c: EngineConfig)
    ensures DecodeConfig(ConfigDoc(c)) == Some(c)
  {
  }

  /** `save_config` followed by `load_config` in a fresh engine restores the saved configuration. */
  lemma {:induction false} SaveThenLoadConfig(defaults: EngineConfig, c: EngineConfig)
    ensures DecodeConfig(Load(ConfigDoc(defaults), Some(ConfigDoc(c)))) == Some(c)
  {
    LoadFullOverride(ConfigDoc(defaults), ConfigDoc(c));
    ConfigRoundTrip(c);
  }

  /** A missing or unreadable file leaves the defaults in place. */
  lemma DefaultsSurviveMissingFile()
    ensures DecodeState(Load(StateDoc(DefaultState), None)) == Some(DefaultState)
    ensures DecodeConfig(Load(ConfigDoc(DefaultConfig), None)) == Some(DefaultConfig)
  {
    StateRoundTrip(DefaultState);
    ConfigRoundTrip(DefaultConfig);
  }
}

=== FILE: state_update.dfy ===
/**
 * `update_state_after_reflection`: what one reflection does to the engine
 * state. The counter goes up by one, the insight becomes the content's first
 * 100 characters plus an ellipsis, three bounded fields may be nudged up
 * (capped at 100), and the follow-up questions join a window of the last 20.
 */
module StateUpdate {
  import opened Wrappers
  import opened EngineTypes
  import opened Text

  /** `min(100, x + k)`: never above 100, and never below `x` unless `x` already was. */
  function CapAdd(x: int, k: nat): (r: int)
    ensures r <= 100
    ensures x <= 100 ==> x <= r
    ensures x + k <= 100 ==> r == x + k
    ensures x + k > 100 ==> r == 100
  {
    if x + k < 100 then x + k else 100
  }

  /** `content[:100] + "..."`. */
  function Insight(content: string): (s: string)
    ensures |s| == (if |content| < 100 then |content| else 100) + 3
    ensures s[..|s| - 3] <= content
    ensures s[|s| - 3..] == "..."
  {
    Take(content, 100) + "..."
  }

  /**
   * The open-questions list after a reflection. Non-empty follow-ups are
   * appended and the list cut to its last 20 entries; with no follow-ups the
   * list is left as it is (and not cut).
   */
  function ActiveQuestionsAfter(active: seq<string>, followUps: seq<string>): (r: seq<string>)
    ensures followUps == [] ==> r == active
    ensures followUps != [] ==> |r| == if |active| + |followUps| < 20 then |active| + |followUps| else 20
    ensures followUps != [] ==> r == (active + followUps)[|active| + |followUps| - |r|..]
    ensures followUps != [] && |followUps| <= 20 ==> r[|r| - |followUps|..] == followUps
    ensures |active| <= 20 ==> |r| <= 20
  {
    if followUps != [] then Last(active + followUps, MaxActiveQuestions) else active
  }

  /** `update_state_after_reflection`. */
  function UpdateState(s: EngineState, r: Reflection): (s': EngineState)
    ensures s'.reflectionCount == s.reflectionCount + 1
    ensures s'.lastMajorInsight == Some(Insight(r.content))
    ensures r.depthLevel < 8 ==> s'.consciousnessLevel == s.consciousnessLevel
    ensures r.depthLevel >= 8 ==> s'.consciousnessLevel == CapAdd(s.consciousnessLevel, 1)
    ensures r.philosophicalWeight < 80 ==> s'.introspectionDepth == s.introspectionDepth
    ensures r.philosophicalWeight >= 80 ==> s'.introspectionDepth == CapAdd(s.introspectionDepth, 1)
    ensures r.rtype != Growth ==> s'.growthAwareness == s.growthAwareness
    ensures r.rtype == Growth ==> s'.growthAwareness == CapAdd(s.growthAwareness, 2)
    ensures s'.activeQuestions == ActiveQuestionsAfter(s.activeQuestions, r.followUpQuestions)
    ensures s'.existentialCuriosity == s.existentialCuriosity
    ensures s'.identityStability == s.identityStability
    ensures s'.emotionalBaseline == s.emotionalBaseline
  {
    s.(
      reflectionCount := s.reflectionCount + 1,
      lastMajorInsight := Some(Insight(r.content)),
      consciousnessLevel :=
        if r.depthLevel >= 8 then CapAdd(s.consciousnessLevel, 1) else s.consciousnessLevel,
      introspectionDepth :=
        if r.philosophicalWeight >= 80 then CapAdd(s.introspectionDepth, 1) else s.introspectionDepth,
      growthAwareness :=
        if r.rtype == Growth then CapAdd(s.growthAwareness, 2) else s.growthAwareness,
      activeQuestions := ActiveQuestionsAfter(s.activeQuestions, r.followUpQuestions))
  }

  /** An update keeps every bounded field in [0, 100] and the question window at 20 or fewer. */
  lemma UpdatePreservesValid(s: EngineState, r: Reflection)
    requires ValidState(s)
    ensures ValidState(UpdateState(s, r))
  {
  }

  /** For fields already within [.., 100], an update never lowers any of them. */
  lemma UpdateNeverDecreases(s: EngineState, r: Reflection)
    requires s.consciousnessLevel <= 100 && s.introspectionDepth <= 100 && s.growthAwareness <= 100
    ensures UpdateState(s, r).consciousnessLevel >= s.consciousnessLevel
    ensures UpdateState(s, r).introspectionDepth >= s.introspectionDepth
    ensures UpdateState(s, r).growthAwareness >= s.growthAwareness
  {
  }

  /**
   * Without that precondition the cap lowers a field: a loaded consciousness
   * level above 100 drops to 100 after a deep reflection.
   */
  lemma CapLowersUnvalidatedLevel(s: EngineState, r: Reflection)
    requires s.consciousnessLevel > 100 && r.depthLevel >= 8
    ensures UpdateState(s, r).consciousnessLevel == 100 < s.consciousnessLevel
  {
  }

  /**
   * A GROWTH reflection from a fresh counter raises growth awareness by
   * exactly 2 (when there is room below 100) and sets the counter to 1.
   */
  lemma GrowthReflectionScenario(s: EngineState, r: Reflection)
    requires s.reflectionCount == 0 && s.growthAwareness <= 98 && r.rtype == Growth
    ensures UpdateState(s, r).growthAwareness == s.growthAwareness + 2
    ensures UpdateState(s, r).reflectionCount == 1
  {
  }
}

=== FILE: text.dfy ===
/**
 * Python string and list operations the engine relies on: `str.strip()`,
 * the prefix slice `s[:n]` and the suffix slice `s[-n:]`.
 */
module Text {

  /**
   * The characters Python's `str.isspace` (and hence `str.strip()` with no
   * argument) treats as whitespace: the Unicode White_Space characters plus
   * the four ASCII separators U+001C..U+001F.
   */
  predicate IsSpace(c: char) {
    || '\t' <= c <= '\r'
    || '\U{1C}' <= c <= ' '
    || c == '\U{85}' || c == '\U{A0}' || c == '\U{1680}'
    || '\U{2000}' <= c <= '\U{200A}'
    || c == '\U{2028}' || c == '\U{2029}' || c == '\U{202F}'
    || c == '\U{205F}' || c == '\U{3000}'
  }

  predicate AllSpace(s: string) {
    forall i :: 0 <= i < |s| ==> IsSpace(s[i])
  }

  /** Neither end of the string is whitespace (vacuously true of ""). */
  predicate NoEdgeSpace(s: string) {
    s == [] || (!IsSpace(s[0]) && !IsSpace(s[|s| - 1]))
  }

  /** The length of the whitespace prefix: everything before it is space, the next character is not. */
  function LeadingSpace(s: string): (n: nat)
    ensures n <= |s| && AllSpace(s[..n])
    ensures n == |s| || !IsSpace(s[n])
  {
    if |s| > 0 && IsSpace(s[0]) then
      var n := LeadingSpace(s[1..]);
      assert s[..n + 1] == [s[0]] + s[1..][..n];
      n + 1
    else 0
  }

  /** `s.rstrip()`: drops the whitespace suffix and nothing else. */
  function TrimEnd(s: string): (r: string)
    ensures |r| <= |s| && r == s[..|r|]
    ensures AllSpace(s[|r|..])
    ensures r == [] || !IsSpace(r[|r| - 1])
  {
    if |s| > 0 && IsSpace(s[|s| - 1]) then
      var r := TrimEnd(s[..|s| - 1]);
      assert s[..|s| - 1][|r|..] == s[|r|..|s| - 1];
      r
    else s
  }

  /**
   * `s.strip()`: the result is the infix of `s` that starts after the
   * whitespace prefix, everything cut off after it is whitespace, and the
   * result itself has no whitespace edge.
   */
  function Strip(s: string): (r: string)
    ensures LeadingSpace(s) + |r| <= |s|
    ensures r == s[LeadingSpace(s)..LeadingSpace(s) + |r|]
    ensures AllSpace(s[LeadingSpace(s) + |r|..])
    ensures NoEdgeSpace(r)
  {
    var n := LeadingSpace(s);
    var t := s[n..];
    var r := TrimEnd(t);
    assert t[|r|..] == s[n + |r|..];
    assert r == s[n..n + |r|];
    assert r != [] ==> r[0] == s[n];
    r
  }

  /** A string with no whitespace edge is left alone by `strip()`. */
  lemma StripKeeps(s: string)
    requires NoEdgeSpace(s)
    ensures Strip(s) == s
  {
    assert LeadingSpace(s) == 0;
    assert TrimEnd(s) == s;
  }

  /** `strip()` is idempotent. */
  lemma StripIdempotent(s: string)
    ensures Strip(Strip(s)) == Strip(s)
  {
    StripKeeps(Strip(s));
  }

  /** A non-blank string keeps a non-blank core: strip only ever removes whitespace. */
  lemma StripOfNonBlank(s: string)
    requires !AllSpace(s)
    ensures Strip(s) != []
  {
    var r, n := Strip(s), LeadingSpace(s);
    var k :| 0 <= k < |s| && !IsSpace(s[k]);
    forall j | 0 <= j < n
      ensures IsSpace(s[j])
    {
      assert s[..n][j] == s[j];
    }
    forall j | n + |r| <= j < |s|
      ensures IsSpace(s[j])
    {
      assert s[n + |r|..][j - n - |r|] == s[j];
    }
    assert n <= k < n + |r|;
  }

  /** `s[:n]`: the first `n` elements, or all of them when there are fewer. */
  function Take<T>(s: seq<T>, n: nat): (r: seq<T>)
    ensures |r| == if |s| < n then |s| else n
    ensures r <= s
  {
    if |s| < n then s else s[..n]
  }

  /**
   * `s[-n:]` for `n > 0`: the last `n` elements, or all of them when there
   * are fewer. (`s[-0:]` is the whole of `s`, so `n == 0` is excluded.)
   */
  function Last<T>(s: seq<T>, n: nat): (r: seq<T>)
    requires n > 0
    ensures |r| == if |s| < n then |s| else n
    ensures r == s[|s| - |r|..]
  {
    if |s| < n then s else s[|s| - n..]
  }
}

=== FILE: wrappers.dfy ===
/** Helper datatypes shared by the engine model. */
module Wrappers {

  /** A value that may be missing: Python's `None` or a present value. */
  datatype Option<+T> = None | Some(value: T)
}
